=== FILE: README.md ===
# pyhexedit core in Dafny

A model of the pure logic inside `PyHexEdit`, a Qt hex-view widget. The widget shows a read-only byte
buffer as an address gutter, a hex pane (two digits and a separator per byte) and a text pane (one glyph
per byte). The user places a caret with the mouse, drags out a selection, and copies it as hex or as text.

The model covers:

- `Cursor` (`cursor.dfy`): the `TextCursor` selection state machine. It has two (line, column)
  anchors, a pane flag and a column limit. The operations are `clear`, `moveTo` (which snaps a separator
  column back to its byte), `selectTo` with the direction-dependent column snapping of `_fixSelection`,
  the order-normalising accessors `beginLine/endLine/beginPos/endPos`, and the predicates
  `isValid/hasMultiLines/hasSelection/within`.
- `Geometry` (`geometry.dfy`): `lineCount`, `rowForPos` and `rowColForPos`. Font metrics, the
  first visible line, the buffer length and the bytes per line are plain integers.
- `Hex` and `Layouts` (`hex.dfy`, `layouts.dfy`): Python's `format(n, "X")` / `"0<w>X"` spellings.
  Also the layout arithmetic of `setData` (gutter digits, pane origins) and the gutter's address label.
- `Export` (`export.dfy`): `_isInvisibleChar` and `_doCopy`. The column range becomes a byte slice with
  Python's slice clamping. It is serialised as uppercase hex pairs separated by single spaces, or as one
  glyph per byte with `.` for the C0 bytes 0x00-0x1F (DEL and 0x80-0x9F pass through). The result is returned instead of being put on the clipboard.
- `HexEdit` (`hexedit.dfy`): the editor state. It ties these together in `setData`, the primary-button
  press and drag handlers, `copyAsHex/copyAsText` and `copy`. It also proves that the cursor never leaves
  the grid and that copying never depends on slice clamping.

Columns live in the hex pane's column space. Byte k of a line owns columns 3k and 3k+1 (its digits)
and 3k+2 (the separator). A caret at column c stands before character c. A well-formed selection of
bytes k..j therefore runs from column 3k to column 3j+2, and `(col + 1) // 3` turns a column into a
byte index. The text pane shares this column space: its glyph boundary k maps to column 3k-1.

`setData` calls `moveTo(0, 0)`, not `clear()`, so a valid caret remains at (0, 0) in the hex pane
(`HexEdit.SetData`). One-line spans need not be a multiple of 3 columns (`HexEdit.SpanNotMultipleOfThree`).
The snapping code's comments say "select one byte at least", but that promise is not kept: a selection
may cover no byte (`HexEdit.SeparatorOnlySelection`, `HexEdit.DragBackToPressScenario`). What snapping
does guarantee is stated in `Cursor.FixSelectionAligns`. Take the anchor that was first in reading order
when the snap began; in a revert drag that is the end anchor. It ends on a byte's first digit, and the
other anchor ends just past a byte's second digit, except where a line edge stops the snap. The snap can
swap which anchor comes first, so afterwards the first anchor in reading order may sit on a separator
column. A revert snap also moves the begin anchor off the press point, so dragging back to the press
point need not leave a caret (`HexEdit.DragBackToPressScenario`).

## Model

| member | source | states |
|---|---|---|
| `Cursor.New` | pyhexedit/pyhexedit.py:40-49 | A new cursor is cleared, in the hex pane, invalid and without selection, and keeps the given column limit |
| `Cursor.Clear` | pyhexedit/pyhexedit.py:44-49 | After clear the cursor is not valid, has no selection, no multiple lines, is within no line, and keeps its column limit |
| `Cursor.ValidInReadingOrder` | pyhexedit/pyhexedit.py:51-55 | isValid holds iff none of the four normalised coordinates is the cleared marker -1, whatever the drag direction; a cleared cursor is never valid |
| `Cursor.HasMultiLines` | pyhexedit/pyhexedit.py:57-61 | hasMultiLines holds iff the cursor is valid and its upper anchor line (beginLine) lies strictly above its lower one (endLine) |
| `Cursor.HasSelection` | pyhexedit/pyhexedit.py:63-69 | hasSelection holds iff the cursor is valid and its first anchor in reading order comes strictly before the other |
| `Cursor.SelectionHierarchy` | pyhexedit/pyhexedit.py:51-69 | hasMultiLines implies hasSelection implies isValid; hasSelection holds iff the cursor is valid and its two anchors differ; hasMultiLines holds iff the cursor is valid and beginLine < endLine |
| `Cursor.Within` | pyhexedit/pyhexedit.py:71-78 | within(line) holds iff there is a selection and line lies between the two anchor lines, in either drag direction |
| `Cursor.BeginLine` | pyhexedit/pyhexedit.py:80-81 | beginLine is one of the anchor lines and is not greater than either |
| `Cursor.EndLine` | pyhexedit/pyhexedit.py:83-84 | endLine is one of the anchor lines and is not less than either |
| `Cursor.BeginPos` | pyhexedit/pyhexedit.py:86-92 | beginPos is the column of the anchor that comes first in reading order |
| `Cursor.EndPos` | pyhexedit/pyhexedit.py:94-100 | endPos is the column of the anchor that comes last in reading order |
| `Cursor.AccessorsSortAnchors` | pyhexedit/pyhexedit.py:80-100 | Whatever the anchor order, (beginLine, beginPos) and (endLine, endPos) are the two anchors sorted in reading order; so beginLine <= endLine, and beginPos <= endPos on one line |
| `Cursor.MoveTo` | pyhexedit/pyhexedit.py:102-112 | moveTo collapses both anchors onto one point and sets the pane. The text pane stores the column unchanged. In the hex pane the column stays in its byte, is never a separator column, and changes only when it was one |
| `Cursor.MoveToSnapsSeparator` | pyhexedit/pyhexedit.py:102-105 | In the hex pane moveTo(l, p) with p % 3 == 2 gives the same cursor as moveTo(l, p-2), and moving again to the snapped point changes nothing |
| `Cursor.MoveToIsPoint` | pyhexedit/pyhexedit.py:102-112 | For line, column >= 0 the result is valid, both anchors are equal, there is no selection and it is within no line |
| `Cursor.FixSelection` | pyhexedit/pyhexedit.py:125-156 | Snapping changes only the two column fields, each by at most one. It does nothing without a selection, and keeps columns that start in [0, maxColumn] inside [0, maxColumn] |
| `Cursor.SelectTo` | pyhexedit/pyhexedit.py:114-117 | selectTo sets the end line and leaves the begin line, pane and column limit alone. Each column ends within one of its assigned value. With in-range columns and no resulting selection, the columns are exactly as assigned |
| `Cursor.IsRevert` | pyhexedit/pyhexedit.py:131 | The drag counts as a revert iff the point dragged to is one of the two anchors and neither anchor comes before it in reading order |
| `Cursor.RevertMeansBefore` | pyhexedit/pyhexedit.py:131 | On a selection, the revert test holds iff the moved end anchor stands strictly before the begin anchor |
| `Cursor.FixSelectionKeepsSelection` | pyhexedit/pyhexedit.py:125-156 | After a drag with in-range columns, snapping never turns a selection into a caret |
| `Cursor.FixSelectionAligns` | pyhexedit/pyhexedit.py:132-153 | With in-range columns and maxColumn % 3 == 2, the anchor that was first in reading order when the snap began (the end anchor in a revert drag) ends on a byte's first digit (col % 3 == 0), and the other just past a byte's second digit (col % 3 == 2), except at column 0 or maxColumn. The snap may swap which anchor comes first |
| `Cursor.SnapRevertAligns` | pyhexedit/pyhexedit.py:132-142 | The revert branch of the snap, on in-range columns with maxColumn % 3 == 2: the end column lands on 3k (or maxColumn) and the begin column on 3k+2 (or 0) |
| `Cursor.SnapForwardAligns` | pyhexedit/pyhexedit.py:143-153 | The forward branch of the snap: the begin column lands on 3k (or maxColumn) and the end column on 3k+2 (or 0) |
| `Cursor.FixSelectionKeepsByteBound` | pyhexedit/pyhexedit.py:132-153 | No column in [0, 3k] is pushed past 3k or below 0; this keeps columns on a short last line in range |
| `Cursor.SelectToSelects` | pyhexedit/pyhexedit.py:114-131 | With in-range columns, selectTo leaves a selection iff the new point differs from the begin anchor |
| `Geometry.LineCount` | pyhexedit/pyhexedit.py:272-278 | lineCount is 0 exactly when there is no data, and otherwise the least n with len <= n * bytesPerLine (the ceiling of len / bytesPerLine) |
| `Geometry.ColumnBoundIsLineEnd` | pyhexedit/pyhexedit.py:503-509 | On every line of a non-empty buffer the highest column is the caret just past the line's last byte: its byte index (col+1)//3 is the number of bytes on that line, bytesPerLine or the remainder on a partial last line |
| `Geometry.CharsPerLine` | pyhexedit/pyhexedit.py:167 | The highest column of a line is 3 * bytesPerLine - 1. It is a separator position (% 3 == 2), and its byte index (col+1)//3 is bytesPerLine: the caret just past the line's last byte |
| `Geometry.ColumnBoundShape` | pyhexedit/pyhexedit.py:503-509 | The column limit of a line lies in [0, charsPerLine] and is a whole number of bytes (3k) or the full line width, which is 3 * bytesPerLine - 1 (so % 3 == 2) |
| `Geometry.RowForPos` | pyhexedit/pyhexedit.py:513-522 | The row is at most max(lineCount-1, 0) and at least 0 when firstVisibleLine >= 0. It is the line whose pixel band holds y, or the last line when that band lies past the data |
| `Geometry.RowForPosMonotone` | pyhexedit/pyhexedit.py:513-522 | Moving the pointer down never moves the row up |
| `Geometry.RawColumn` | pyhexedit/pyhexedit.py:495-501 | Before clamping, the hex-pane column is the glyph boundary nearest to x; the text-pane column is 3k-1 (a separator column) for the glyph boundary k nearest to x |
| `Geometry.RowColForPos` | pyhexedit/pyhexedit.py:492-511 | The row is rowForPos(y). The column lies in [0, charsPerLine], is 0 with no data, and is at most 3 * (len % bpl) on a partial last line |
| `Geometry.RowColForPosNearest` | pyhexedit/pyhexedit.py:495-501 | Away from the clamps, the column is the glyph boundary nearest to x in the hex pane. In the text pane it is 3k-1 for the glyph boundary k nearest to x |
| `Geometry.RowColForPosMonotone` | pyhexedit/pyhexedit.py:492-511 | Moving the pointer right within a pane never moves the column left |
| `Geometry.CaretPixelRoundTrip` | pyhexedit/pyhexedit.py:484-522 | The pixel where a hex-pane caret at (line, pos) is drawn (hexPosX + pos * charWidth, the top of the line's band) maps back to (line, pos) for every address of the grid on a line at or below the first visible line (line >= firstVisibleLine) |
| `Geometry.TextCaretPixelRoundTrip` | pyhexedit/pyhexedit.py:486-499 | The text-pane glyph boundary of a column 3k-1 (or 0) maps back to that column, for every address of the grid on a line at or below the first visible line |
| `Geometry.SeventeenBytesScenario` | pyhexedit/pyhexedit.py:503-509 | 17 bytes at 16 per line take two lines. On line 1 no column exceeds 3, and any x right of the single byte gives column 3 |
| `Hex.DigitValue` | pyhexedit/pyhexedit.py:362 | Only uppercase hex digits decode, and each decodes to the digit value it is spelled from |
| `Hex.Repr` | pyhexedit/pyhexedit.py:378-379 | format(n, "X") has d >= 1 digits with 16^(d-1) <= n < 16^d (n < 16 for one digit), all drawn from 0-9A-F |
| `Hex.ReprRoundTrip` | pyhexedit/pyhexedit.py:378-379 | Reading format(n, "X") back as hex gives n |
| `Hex.Pad` | pyhexedit/pyhexedit.py:378-379 | format(n, "0<w>X") is the digits of n left-padded with zeros to width w; it is never shorter than the digits |
| `Hex.PadRoundTrip` | pyhexedit/pyhexedit.py:378-379 | Reading format(n, "0<w>X") back as hex gives n for every width w: the leading zeros add nothing |
| `Layouts.DecimalDigits` | pyhexedit/pyhexedit.py:196 | len(str(n)) is the d >= 1 with 10^(d-1) <= n < 10^d (n < 10 for one digit) |
| `Layouts.InitialLayoutIsUnset` | pyhexedit/pyhexedit.py:178-182 | Before setData the gutter has 4 digits and every pixel offset is 0; no layout computed for a positive glyph width equals it |
| `Layouts.LayoutFor` | pyhexedit/pyhexedit.py:199-206 | The gutter holds digits + 1 glyphs. The hex pane starts one glyph later and spans charsPerLine glyphs plus one glyph of space. The text pane spans bytesPerLine glyphs |
| `Layouts.AddressLabel` | pyhexedit/pyhexedit.py:377-379 | The label ends in `h`; the text before it reads back as hex to the line's byte offset line * bytesPerLine, and is as long as the wider of that offset's digit count and the requested width |
| `Layouts.AddressDigitsAsWritten` | pyhexedit/pyhexedit.py:196-198 | setData's gutter width as written is exactly max(4, decimal digit count of the line count): it is at least 4, the line count is below 10^d, and unless d is 4 the line count is at least 10^(d-1) |
| `Layouts.AddressLabelOverflowsAsWritten` | pyhexedit/pyhexedit.py:196-198 | With 65537 bytes the width as written is 4 digits, yet the last line's label needs 6 glyphs, more than the 5-glyph gutter |
| `Layouts.AddressDigits` | pyhexedit/pyhexedit.py:196-198 | The corrected gutter width is exactly max(4, hex digit count of the last line's offset): at least 4, the offset is below 16^d, and unless d is 4 the offset is at least 16^(d-1) |
| `Layouts.AddressLabelFits` | pyhexedit/pyhexedit.py:377-379 | With the corrected width, every line's label is exactly digits + 1 glyphs, the gutter width |
| `Layouts.CorrectedLabelsFit` | pyhexedit/pyhexedit.py:196-206 | In the corrected layout, every line's label times the glyph width is exactly the gutter width |
| `Layouts.LayoutAsWritten` | pyhexedit/pyhexedit.py:196-206 | The layout setData computes: gutter digits d >= 4 with 10^(d-1) <= lineCount < 10^d unless d is 4, a gutter of d + 1 glyphs, hexPosX one glyph past the gutter, a hex pane of charsPerLine glyphs plus one glyph of space before asciiPosX, and maxWidth bytesPerLine glyphs past asciiPosX |
| `Layouts.CorrectedLayout` | pyhexedit/pyhexedit.py:196-206 | The corrected layout: the same pixel arithmetic (gutter, hexPosX, asciiPosX, maxWidth), with d >= 4 digits where 16^(d-1) <= last offset < 16^d unless d is 4 |
| `Export.HexByte` | pyhexedit/pyhexedit.py:618-620 | format(b, "02X") is two characters that decode to the high and low nibble of b |
| `Export.HexByteIsPadded` | pyhexedit/pyhexedit.py:618-620 | The two-digit spelling agrees with the zero-padded format of the byte |
| `Export.IsInvisibleChar` | pyhexedit/pyhexedit.py:34-35 | A byte is invisible iff it is a C0 control, below 0x20; the `>= 0x00` test is always true for a byte, and DEL and 0x80-0x9F are not invisible |
| `Export.Glyph` | pyhexedit/pyhexedit.py:623-627 | A byte's text glyph is never a C0 control (0x00-0x1F). C0 bytes become `.`; every other byte keeps its code point, so DEL and 0x80-0x9F pass through |
| `Export.HexText` | pyhexedit/pyhexedit.py:615-620 | Hex output is empty for no bytes and has length 3n-1 for n >= 1 bytes: two digits per byte and one space between neighbours, none trailing |
| `Export.HexTextAt` | pyhexedit/pyhexedit.py:615-620 | Position k of the hex output is a space iff k % 3 == 2; any other position holds digit k % 3 of byte k / 3 |
| `Export.HexTextSnoc` | pyhexedit/pyhexedit.py:616-620 | Appending a byte appends one space and its two digits |
| `Export.HexTextRoundTrip` | pyhexedit/pyhexedit.py:615-620 | Parsing the hex output gives back exactly the copied bytes |
| `Export.TextOf` | pyhexedit/pyhexedit.py:621-627 | Text output has one glyph per byte, in order |
| `Export.TextOfGlyphs` | pyhexedit/pyhexedit.py:34-35 | A text position is `.` iff its byte is 0x00-0x1F or is `.` itself; any other position keeps the byte's code (DEL and 0x80-0x9F included); no position is a C0 control |
| `Export.PySlice` | pyhexedit/pyhexedit.py:611 | Python slicing: an in-range slice is the plain subsequence, a backward range is empty, and the result is never longer than the data |
| `Export.ClampIndex` | pyhexedit/pyhexedit.py:611 | A slice bound is normalised into [0, len] and left alone when already inside |
| `Export.CopyRangeIgnoresDirection` | pyhexedit/pyhexedit.py:607-610 | The byte range runs from the anchor first in reading order to the other: it is (beginPos+1)//3 + beginLine*bpl to (endPos+1)//3 + endLine*bpl of the raw anchors when they are in reading order, and swapping the anchors does not change it |
| `Export.Selected` | pyhexedit/pyhexedit.py:611 | The copied bytes are data[begin:end] of the copy range when it lies in the buffer, empty when it runs backwards, and never more than the data |
| `Export.ByteOfColumn` | pyhexedit/pyhexedit.py:607-608 | (col + 1) // 3 is the byte k whose columns 3k-1..3k+1 hold col |
| `Export.HexTextLoop` | pyhexedit/pyhexedit.py:615-620 | The source's accumulate-and-space loop builds exactly the hex serialisation |
| `Export.TextLoop` | pyhexedit/pyhexedit.py:621-627 | The source's glyph loop builds exactly the text serialisation |
| `Export.DoCopy` | pyhexedit/pyhexedit.py:603-628 | Nothing is copied iff there is no data, the data is empty or there is no selection. Otherwise the text is the hex or text serialisation of data[(beginPos+1)//3 + beginLine*bpl : (endPos+1)//3 + endLine*bpl], with Python slice clamping |
| `Export.ExportExample` | pyhexedit/pyhexedit.py:615-627 | Bytes 0A FF 41 copy as "0A FF 41" in hex and as ".ÿA" in text |
| `HexEdit.NewEditor` | pyhexedit/pyhexedit.py:163-184 | A new view has no data, 16 bytes per line, the given font metrics, the initial layout and a cleared hex-pane cursor, and satisfies the grid invariant |
| `HexEdit.HasSelection` | pyhexedit/pyhexedit.py:630-631 | The view has a selection iff its cursor is valid and the two anchors differ |
| `HexEdit.ScrollInRange` | pyhexedit/pyhexedit.py:237-251 | After the vertical range is set to [0, top], the scroll value lies in [0, max(0, top)]: it is unchanged when it fits and otherwise becomes max(0, top) |
| `HexEdit.SetData` | pyhexedit/pyhexedit.py:193-215 | setData stores the data, installs the layout computed from the decimal digit count of the new line count, and leaves a valid caret at (0, 0) in the hex pane with no selection. The cursor is moved, not cleared. The first visible line is clamped into [0, max(0, lineCount - linesPerPage)]: kept when it fits, 0 with no data |
| `HexEdit.SetDataLabelOverflows` | pyhexedit/pyhexedit.py:196-206 | After setData on a 65537-byte buffer at 16 bytes per line, the last of its 4097 labels is wider than the gutter |
| `HexEdit.SetDataCorrected` | pyhexedit/pyhexedit.py:193-215 | The corrected setData differs from setData only in the layout, which is the corrected one for the new line count |
| `HexEdit.SetDataLabelsFit` | pyhexedit/pyhexedit.py:196-206 | After the corrected setData, every line's address label is exactly as wide as the gutter |
| `HexEdit.MousePress` | pyhexedit/pyhexedit.py:543-560 | Without data nothing changes. Otherwise only the cursor changes: it becomes a valid caret, without selection, in the pane under x, at rowColForPos of the pointer. The text pane takes that column as is; the hex pane keeps a digit column as is and moves a separator column c to c-2, the first digit of the byte before it. The grid invariant is kept |
| `HexEdit.FixSelectionStaysInGrid` | pyhexedit/pyhexedit.py:125-156 | Snapping after a drag keeps both anchors at addresses of the grid, including a short last line |
| `HexEdit.MouseMove` | pyhexedit/pyhexedit.py:562-575 | Without data nothing changes. Otherwise only the cursor changes: the end anchor goes to rowColForPos of the pointer in the press's pane, its column within one of it, and the begin column moves by at most one. If no selection results, both columns are exact. The begin line and the pane stay, and the grid invariant is kept |
| `HexEdit.AnchorOffsetInBounds` | pyhexedit/pyhexedit.py:607-610 | Every address of the grid names a byte offset in [line*bpl, (line+1)*bpl] that is inside the buffer or at its end |
| `HexEdit.CopyRangeInBounds` | pyhexedit/pyhexedit.py:603-611 | For any cursor a press or drag can produce, the copy range lies inside the buffer and does not run backwards, so the slice needs no clamping |
| `HexEdit.CopyOneLineCount` | pyhexedit/pyhexedit.py:607-611 | A one-line copy holds exactly (endPos+1)//3 - (beginPos+1)//3 bytes |
| `HexEdit.Copy` | pyhexedit/pyhexedit.py:597-601 | copyAsHex/copyAsText copy nothing iff there is no data or no selection. Otherwise they copy the serialisation of the exact in-bounds byte range |
| `HexEdit.CopyInView` | pyhexedit/pyhexedit.py:591-595 | copy() copies nothing iff there is no data or no selection. Otherwise it copies the hex serialisation of the exact in-bounds byte range when the caret was placed in the hex pane (3n-1 characters for n bytes), and its text serialisation otherwise (n characters) |
| `HexEdit.MoveToSeparatorScenario` | pyhexedit/pyhexedit.py:102-105 | moveTo(0, 5) in the hex pane resolves to column 3, byte 1 |
| `HexEdit.SelectForwardAndBackScenario` | pyhexedit/pyhexedit.py:114-153 | moveTo(0,0) then selectTo(0,3) selects columns 0..2, that is byte 0; a further selectTo(0,0) leaves a caret with no selection |
| `HexEdit.SpanNotMultipleOfThree` | pyhexedit/pyhexedit.py:143-153 | moveTo(0,0) then selectTo(0,4) gives columns 0..5, bytes 0 and 1: a one-line span need not be a multiple of 3 columns |
| `HexEdit.SeparatorOnlySelection` | pyhexedit/pyhexedit.py:132-142 | moveTo(0,3) then selectTo(0,2) swaps the anchor columns to 3 and 2. That is a selection whose copy range is empty, against the "select one byte at least" comment at line 133 |
| `HexEdit.DragBackToPressScenario` | pyhexedit/pyhexedit.py:131-153 | moveTo(0,6), selectTo(0,4) gives columns (5, 3); selectTo(0,6) then gives (6, 5). A selection remains after dragging back to the press point, its first anchor in reading order is on a separator column, and it covers no byte |

## Left out

- Painting (`paintEvent`, `_drawSelection`, `_drawCursor`, `_cursorRect`, `_invalidateSelection`, and `_drawAddress` apart from its label text): these are QPainter, clip-region and repaint side effects. `dpiScaled` comes from `stylehelper`, which is not part of this model.
- Scrolling (`contentOffset`, `mapToContents`, `resizeEvent`, and `_adjustScrollbar` apart from the vertical clamp during setData): the first visible line is otherwise a field the host sets (non-negative, as a scrollbar value is). `linesPerPage` comes from the viewport height and is a parameter of `SetData`. The horizontal range and page steps are left to the host. Pointer x arrives in content coordinates, with the horizontal scroll already added.
- `HexEdit.ScrollInRange` takes the scrollbar's range semantics as given: a maximum below the minimum is raised to the minimum, and the value is moved into the range. The widget library is not part of this model.
- Font selection and metrics (`_defaultFont`, `_isFixedPitch`, `QFontMetrics`): `charWidth` and `lineHeight` are given positive integers; the ascent only matters for painting.
- The caret blink timer, `blinkCursor`, `focusInEvent` and `focusOutEvent`: timer-driven display state that never touches the cursor.
- The `selectionChanged` signal and the clipboard write: `Copy` returns the text instead of placing it.
- `QT_VERSION` detection, which only chooses between two font-metric calls.
- Mouse button tests: `MousePress` and `MouseMove` model the primary-button path; the source returns early for any other button.
- `inAsciiView()` / `inHexView()` are the cursor's `inAsciiView` field and its negation.
- `Geometry.RowForPos`: `int(y / lineHeight)` is a float division truncated to an int. It is modelled as exact floor division, which agrees for non-negative y below 2^53.
- `Cursor.SelectTo`: the "no selection means the columns are exactly as assigned" promise is stated only for anchor lines >= 0 and columns in [0, maxColumn]. Outside that range snapping can collapse a selection, for example with maxColumn 2, begin column 2 and end column 3.
- No claim that one-line spans are a multiple of 3 columns, which the code never promises. No claim that a selection covers at least one byte: the comments at lines 133 and 144 say so, but the code does not keep it (`HexEdit.SeparatorOnlySelection`, `HexEdit.DragBackToPressScenario`).

## Findings

| source | as written | input that shows it | evidently intended | confidence | as-written member | corrected member |
|---|---|---|---|---|---|---|
| pyhexedit/pyhexedit.py:196-198 | The gutter width is the decimal digit count of the line count, at least 4. The label drawn in it (lines 378-379) is the hex byte offset `lineNum * bytesPerLine`, padded to that width | A 65537-byte buffer has 4097 lines, so the gutter gets 4 digits (5 glyphs with `h`). The last label is `10000h`, 6 glyphs, and runs into the hex pane | Size the gutter by the hex digit count of the last line's offset, at least 4; with that width every label fits (`HexEdit.SetDataLabelsFit`) | medium; not executed | `HexEdit.SetDataLabelOverflows` | `HexEdit.SetDataCorrected` |

=== FILE: cursor.dfy ===
/**
 * The selection state machine of the hex view (class TextCursor).
 *
 * Columns live in the hex pane's column space: byte k of a line owns the
 * columns 3k and 3k+1 (its two digits) and 3k+2 (the separator after it).
 * A caret at column c stands just before character c, so a selection that
 * covers bytes k..j of one line runs from column 3k to column 3j+2.
 * The ASCII pane shares this column space.
 */
module Cursor {
  import opened Ints

  /** The value every anchor field holds in a cleared cursor. */
  const Unset := -1

  datatype TextCursor = TextCursor(
    beginLine: int,
    beginPos: int,
    endLine: int,
    endPos: int,
    inAsciiView: bool,
    maxColumn: int)

  /** (l1, p1) comes strictly before (l2, p2) in reading order. */
  predicate LexLt(l1: int, p1: int, l2: int, p2: int) {
    l1 < l2 || (l1 == l2 && p1 < p2)
  }

  /** (l1, p1) comes at or before (l2, p2) in reading order. */
  predicate LexLe(l1: int, p1: int, l2: int, p2: int) {
    l1 < l2 || (l1 == l2 && p1 <= p2)
  }

  /** True when every anchor field holds the cleared marker. */
  predicate Cleared(c: TextCursor) {
    c.beginLine == Unset && c.beginPos == Unset && c.endLine == Unset && c.endPos == Unset
  }

  /** A freshly constructed cursor: cleared, hex pane, with the given column limit. */
  function New(maxColumn: int): (c: TextCursor)
    ensures Cleared(c) && !c.inAsciiView && c.maxColumn == maxColumn
    ensures !IsValid(c) && !HasSelection(c)
  {
    Clear(TextCursor(0, 0, 0, 0, false, maxColumn))
  }

  /** Forget both anchors and return to the hex pane; the column limit is kept. */
  function Clear(c: TextCursor): (r: TextCursor)
    ensures !IsValid(r) && !HasSelection(r) && !HasMultiLines(r)
    ensures forall line :: !Within(r, line)
    ensures !r.inAsciiView && r.maxColumn == c.maxColumn
  {
    TextCursor(Unset, Unset, Unset, Unset, false, c.maxColumn)
  }

  predicate IsValid(c: TextCursor) {
    c.beginLine != Unset && c.endLine != Unset && c.beginPos != Unset && c.endPos != Unset
  }

  /** A valid cursor whose upper anchor line lies above its lower one. */
  function HasMultiLines(c: TextCursor): (m: bool)
    ensures m <==> IsValid(c) && BeginLine(c) < EndLine(c)
  {
    IsValid(c) && c.beginLine != c.endLine
  }

  /** A valid cursor whose first anchor in reading order comes strictly before the other. */
  function HasSelection(c: TextCursor): (s: bool)
    ensures s <==> IsValid(c) && LexLt(BeginLine(c), BeginPos(c), EndLine(c), EndPos(c))
  {
    if !IsValid(c) then false
    else if HasMultiLines(c) then true
    else c.beginPos != c.endPos
  }

  /** Whether `line` is one of the lines the selection touches. */
  function Within(c: TextCursor, line: int): (w: bool)
    ensures w <==> HasSelection(c) &&
                   (c.beginLine <= line <= c.endLine || c.endLine <= line <= c.beginLine)
  {
    if !HasSelection(c) then false
    else line >= BeginLine(c) && line <= EndLine(c)
  }

  /** The upper of the two anchor lines, whatever the drag direction. */
  function BeginLine(c: TextCursor): (l: int)
    ensures l == c.beginLine || l == c.endLine
    ensures l <= c.beginLine && l <= c.endLine
  {
    Min(c.beginLine, c.endLine)
  }

  /** The lower of the two anchor lines, whatever the drag direction. */
  function EndLine(c: TextCursor): (l: int)
    ensures l == c.beginLine || l == c.endLine
    ensures l >= c.beginLine && l >= c.endLine
  {
    Max(c.beginLine, c.endLine)
  }

  /** The column of the anchor that comes first in reading order. */
  function BeginPos(c: TextCursor): (p: int)
    ensures LexLe(c.beginLine, c.beginPos, c.endLine, c.endPos) ==> p == c.beginPos
    ensures !LexLe(c.beginLine, c.beginPos, c.endLine, c.endPos) ==> p == c.endPos
  {
    if c.beginLine == c.endLine then Min(c.beginPos, c.endPos)
    else if c.beginLine < c.endLine then c.beginPos
    else c.endPos
  }

  /** The column of the anchor that comes last in reading order. */
  function EndPos(c: TextCursor): (p: int)
    ensures LexLt(c.beginLine, c.beginPos, c.endLine, c.endPos) ==> p == c.endPos
    ensures !LexLt(c.beginLine, c.beginPos, c.endLine, c.endPos) ==> p == c.beginPos
  {
    if c.beginLine == c.endLine then Max(c.beginPos, c.endPos)
    else if c.beginLine < c.endLine then c.endPos
    else c.beginPos
  }

  /**
   * The normalised accessors return the two anchors sorted in reading order:
   * (BeginLine, BeginPos) is one anchor, (EndLine, EndPos) the other, and the
   * first never comes after the second.
   */
  lemma AccessorsSortAnchors(c: TextCursor)
    ensures BeginLine(c) <= EndLine(c)
    ensures BeginLine(c) == EndLine(c) ==> BeginPos(c) <= EndPos(c)
    ensures LexLe(BeginLine(c), BeginPos(c), EndLine(c), EndPos(c))
    ensures multiset{(BeginLine(c), BeginPos(c)), (EndLine(c), EndPos(c))}
         == multiset{(c.beginLine, c.beginPos), (c.endLine, c.endPos)}
  {
  }

  /**
   * Validity does not depend on the drag direction: a cursor is valid exactly
   * when none of the four normalised coordinates holds the cleared marker.
   */
  lemma ValidInReadingOrder(c: TextCursor)
    ensures IsValid(c) <==>
      BeginLine(c) != Unset && BeginPos(c) != Unset && EndLine(c) != Unset && EndPos(c) != Unset
    ensures IsValid(c) ==> !Cleared(c)
  {
  }

  /** Several lines imply a selection, and a selection implies a valid cursor. */
  lemma SelectionHierarchy(c: TextCursor)
    ensures HasMultiLines(c) ==> HasSelection(c)
    ensures HasSelection(c) ==> IsValid(c)
    ensures HasSelection(c) <==> IsValid(c) && (c.beginLine, c.beginPos) != (c.endLine, c.endPos)
    ensures HasMultiLines(c) <==> IsValid(c) && BeginLine(c) < EndLine(c)
  {
  }

  /** Place a collapsed caret; in the hex pane a separator column snaps back to its byte. */
  function MoveTo(c: TextCursor, line: int, pos: int, asciiView: bool): (r: TextCursor)
    ensures r.beginLine == line && r.endLine == line && r.beginPos == r.endPos
    ensures r.inAsciiView == asciiView && r.maxColumn == c.maxColumn
    ensures asciiView ==> r.beginPos == pos
    ensures !asciiView ==> r.beginPos % 3 != 2 && r.beginPos / 3 == pos / 3 && r.beginPos <= pos
    ensures !asciiView && pos % 3 != 2 ==> r.beginPos == pos
  {
    var p := if !asciiView && pos % 3 == 2 then pos - 2 else pos;
    TextCursor(line, p, line, p, asciiView, c.maxColumn)
  }

  /** Snapping is idempotent: a separator column lands where its byte's first digit does. */
  lemma MoveToSnapsSeparator(c: TextCursor, line: int, pos: int)
    requires pos % 3 == 2
    ensures MoveTo(c, line, pos, false) == MoveTo(c, line, pos - 2, false)
    ensures MoveTo(c, line, pos, false) == MoveTo(MoveTo(c, line, pos, false), line, BeginPos(MoveTo(c, line, pos, false)), false)
  {
  }

  /** For a real address, moveTo yields a valid caret with no selection. */
  lemma MoveToIsPoint(c: TextCursor, line: int, pos: int, asciiView: bool)
    requires line >= 0 && pos >= 0
    ensures var r := MoveTo(c, line, pos, asciiView);
      IsValid(r) && !HasSelection(r) && !HasMultiLines(r) && !Within(r, line) &&
      BeginLine(r) == EndLine(r) == line && BeginPos(r) == EndPos(r) && BeginPos(r) >= 0
  {
  }

  /** Whether the point (row, col) just dragged to is the first anchor in reading order. */
  function IsRevert(c: TextCursor, row: int, col: int): (rev: bool)
    ensures rev <==>
      ((row, col) == (c.beginLine, c.beginPos) || (row, col) == (c.endLine, c.endPos)) &&
      LexLe(row, col, c.beginLine, c.beginPos) && LexLe(row, col, c.endLine, c.endPos)
  {
    BeginLine(c) == row && BeginPos(c) == col
  }

  /** Column snapping of a revert drag: returns the new (begin, end) columns. */
  function SnapRevert(b: int, e: int, maxColumn: int): (int, int) {
    // a column between a byte's two digits moves outward, so that byte is taken whole
    var b1 := if b % 3 == 1 && b + 1 <= maxColumn then b + 1 else b;
    var e1 := if e % 3 == 1 then e - 1 else e;
    // a separator at either end is dropped: the later anchor (b) steps back off it, the earlier (e) forward
    var b2 := if b1 % 3 == 0 && b1 > 0 then b1 - 1 else b1;
    var e2 := if e1 % 3 == 2 && e1 + 1 <= maxColumn then e1 + 1 else e1;
    (b2, e2)
  }

  /** Column snapping of a forward drag: returns the new (begin, end) columns. */
  function SnapForward(b: int, e: int, maxColumn: int): (int, int) {
    // a column between a byte's two digits moves outward, so that byte is taken whole
    var b1 := if b % 3 == 1 then b - 1 else b;
    var e1 := if e % 3 == 1 && e + 1 <= maxColumn then e + 1 else e;
    // a separator at either end is dropped: the earlier anchor (b) steps forward off it, the later (e) back
    var b2 := if b1 % 3 == 2 && b1 + 1 <= maxColumn then b1 + 1 else b1;
    var e2 := if e1 % 3 == 0 && e1 > 0 then e1 - 1 else e1;
    (b2, e2)
  }

  /**
   * Re-snap the anchor columns after the end anchor moved to (row, col).
   * Only the two column fields change, each by at most one column, and
   * columns inside [0, maxColumn] stay there.
   */
  function FixSelection(c: TextCursor, row: int, col: int): (r: TextCursor)
    ensures r.beginLine == c.beginLine && r.endLine == c.endLine
    ensures r.inAsciiView == c.inAsciiView && r.maxColumn == c.maxColumn
    ensures !HasSelection(c) ==> r == c
    ensures -1 <= r.beginPos - c.beginPos <= 1 && -1 <= r.endPos - c.endPos <= 1
    ensures 0 <= c.beginPos <= c.maxColumn ==> 0 <= r.beginPos <= c.maxColumn
    ensures 0 <= c.endPos <= c.maxColumn ==> 0 <= r.endPos <= c.maxColumn
  {
    if !HasSelection(c) then c
    else
      var cols := if IsRevert(c, row, col) then SnapRevert(c.beginPos, c.endPos, c.maxColumn)
                  else SnapForward(c.beginPos, c.endPos, c.maxColumn);
      c.(beginPos := cols.0, endPos := cols.1)
  }

  /** Extend the selection: the end anchor moves to (line, pos), then the columns re-snap. */
  function SelectTo(c: TextCursor, line: int, pos: int): (r: TextCursor)
    ensures r.endLine == line && r.beginLine == c.beginLine
    ensures r.inAsciiView == c.inAsciiView && r.maxColumn == c.maxColumn
    ensures -1 <= r.beginPos - c.beginPos <= 1 && -1 <= r.endPos - pos <= 1
    ensures InRange(c.(endLine := line, endPos := pos)) && !HasSelection(r) ==>
              r.beginPos == c.beginPos && r.endPos == pos
  {
    var m := c.(endLine := line, endPos := pos);
    if InRange(m) && HasSelection(m) then
      FixSelectionKeepsSelection(m);
      FixSelection(m, line, pos)
    else
      FixSelection(m, line, pos)
  }

  /** The anchor columns both lie inside the column range and the anchor lines are real. */
  predicate InRange(c: TextCursor) {
    c.beginLine >= 0 && c.endLine >= 0 &&
    0 <= c.beginPos <= c.maxColumn && 0 <= c.endPos <= c.maxColumn
  }

  /**
   * On a valid selection the drag is a revert exactly when the moved end
   * anchor now stands strictly before the begin anchor.
   */
  lemma RevertMeansBefore(c: TextCursor)
    requires HasSelection(c)
    ensures IsRevert(c, c.endLine, c.endPos) <==> LexLt(c.endLine, c.endPos, c.beginLine, c.beginPos)
  {
  }

  /**
   * Snapping after a drag to the end anchor never destroys a selection whose
   * columns are in range.
   */
  lemma FixSelectionKeepsSelection(c: TextCursor)
    requires InRange(c) && HasSelection(c)
    ensures HasSelection(FixSelection(c, c.endLine, c.endPos))
  {
  }

  /**
   * Snapping, with the usual column limit 3*bytesPerLine-1: the anchor that was
   * first in reading order when the snap began (the end anchor in a revert drag)
   * ends on a byte's first digit and the other just after a byte's second digit,
   * except where a grid edge stops the snap. The snap can swap which anchor
   * comes first, so the alignment is keyed on the test made before it.
   */
  lemma FixSelectionAligns(c: TextCursor, row: int, col: int)
    requires InRange(c) && HasSelection(c) && c.maxColumn % 3 == 2
    ensures var r := FixSelection(c, row, col);
      if IsRevert(c, row, col) then
        (r.endPos % 3 == 0 || r.endPos == c.maxColumn) && (r.beginPos % 3 == 2 || r.beginPos == 0)
      else
        (r.beginPos % 3 == 0 || r.beginPos == c.maxColumn) && (r.endPos % 3 == 2 || r.endPos == 0)
  {
    if IsRevert(c, row, col) {
      SnapRevertAligns(c.beginPos, c.endPos, c.maxColumn);
    } else {
      SnapForwardAligns(c.beginPos, c.endPos, c.maxColumn);
    }
  }

  /**
   * Revert snapping, with the column limit 3*bytesPerLine-1: the end anchor
   * (first in reading order before the snap) lands on a byte's first digit and the begin
   * anchor just past a byte's second digit, unless a line edge stops it.
   */
  lemma SnapRevertAligns(b: int, e: int, maxColumn: int)
    requires 0 <= b <= maxColumn && 0 <= e <= maxColumn && maxColumn % 3 == 2
    ensures var cols := SnapRevert(b, e, maxColumn);
      (cols.1 % 3 == 0 || cols.1 == maxColumn) && (cols.0 % 3 == 2 || cols.0 == 0)
  {
  }

  /** Forward snapping: the same with the roles of the two anchors swapped. */
  lemma SnapForwardAligns(b: int, e: int, maxColumn: int)
    requires 0 <= b <= maxColumn && 0 <= e <= maxColumn && maxColumn % 3 == 2
    ensures var cols := SnapForward(b, e, maxColumn);
      (cols.0 % 3 == 0 || cols.0 == maxColumn) && (cols.1 % 3 == 2 || cols.1 == 0)
  {
  }

  /**
   * A column bound that is a whole number of bytes (3*k) is never crossed by
   * snapping; this is what keeps a short last line's columns in range.
   */
  lemma FixSelectionKeepsByteBound(c: TextCursor, row: int, col: int, bound: int)
    requires bound % 3 == 0
    ensures 0 <= c.beginPos <= bound ==> 0 <= FixSelection(c, row, col).beginPos <= bound
    ensures 0 <= c.endPos <= bound ==> 0 <= FixSelection(c, row, col).endPos <= bound
  {
  }

  /** selectTo away from the anchor always leaves a selection; back onto it, none. */
  lemma SelectToSelects(c: TextCursor, line: int, pos: int)
    requires line >= 0 && c.beginLine >= 0 && 0 <= c.beginPos <= c.maxColumn && 0 <= pos <= c.maxColumn
    ensures HasSelection(SelectTo(c, line, pos)) <==> (c.beginLine, c.beginPos) != (line, pos)
  {
    var m := c.(endLine := line, endPos := pos);
    if HasSelection(m) {
      FixSelectionKeepsSelection(m);
    }
  }
}

=== FILE: export.dfy ===
/**
 * Export of the selected bytes (PyHexEdit._doCopy and _isInvisibleChar):
 * the selection's column range becomes a byte slice, serialised either as
 * space-separated uppercase hex pairs or as one glyph per byte.
 */
module Export {
  import opened Options
  import Hex
  import Cursor

  type byte = bv8

  /** The glyph drawn and copied in place of a control byte. */
  const Placeholder := '.'

  /**
   * The C0 control bytes 0x00..0x1F have no visible glyph (the lower bound
   * test always holds for a byte). DEL and the C1 controls 0x80..0x9F are not
   * treated as invisible.
   */
  function IsInvisibleChar(b: byte): (inv: bool)
    ensures inv <==> b < 0x20
    ensures 0x7F <= b as int <= 0x9F ==> !inv
  {
    0x00 <= b as int <= 0x1F
  }

  /** format(b, "02X"): the two uppercase hex digits of a byte. */
  function HexByte(b: byte): (s: string)
    ensures |s| == 2
    ensures Hex.DigitValue(s[0]) == Some(b as int / 16)
    ensures Hex.DigitValue(s[1]) == Some(b as int % 16)
  {
    Hex.DigitRoundTrip(b as int / 16);
    Hex.DigitRoundTrip(b as int % 16);
    [Hex.Digit(b as int / 16), Hex.Digit(b as int % 16)]
  }

  /** The two-digit spelling is the zero-padded format of the byte. */
  lemma HexByteIsPadded(b: byte)
    ensures HexByte(b) == Hex.Pad(b as int, 2)
  {
    var n := b as int;
    if n < 16 {
      assert Hex.Repr(n) == [Hex.Digit(n)];
    } else {
      assert Hex.Repr(n / 16) == [Hex.Digit(n / 16)];
    }
  }

  /** chr(b) for a visible byte, the placeholder for a C0 control byte. */
  function Glyph(b: byte): (ch: char)
    ensures ch as int > 0x1F
    ensures IsInvisibleChar(b) ==> ch == Placeholder
    ensures !IsInvisibleChar(b) ==> ch as int == b as int
  {
    if IsInvisibleChar(b) then Placeholder else (b as int) as char
  }

  /**
   * The hex serialisation: two digits per byte, one space between
   * consecutive bytes, none after the last.
   */
  function HexText(bs: seq<byte>): (s: string)
    ensures |bs| == 0 ==> s == []
    ensures |bs| > 0 ==> |s| == 3 * |bs| - 1
  {
    if |bs| == 0 then []
    else if |bs| == 1 then HexByte(bs[0])
    else HexByte(bs[0]) + " " + HexText(bs[1..])
  }

  /**
   * Position k of the hex serialisation is a space exactly when k % 3 == 2;
   * every other position holds digit k % 3 of byte k / 3.
   */
  lemma {:induction false} HexTextAt(bs: seq<byte>, k: int)
    requires 0 <= k < |HexText(bs)|
    ensures HexText(bs)[k] == ' ' <==> k % 3 == 2
    ensures k % 3 != 2 ==> HexText(bs)[k] == HexByte(bs[k / 3])[k % 3]
    decreases |bs|
  {
    if k < 2 {
      assert HexText(bs)[k] == HexByte(bs[0])[k];
      assert Hex.DigitValue(' ') == None;
    } else if k >= 3 {
      ShiftThree(k);
      assert HexText(bs)[k] == HexText(bs[1..])[k - 3];
      HexTextAt(bs[1..], k - 3);
      assert bs[k / 3] == bs[1..][(k - 3) / 3];
    }
  }

  lemma ShiftThree(k: int)
    ensures (k - 3) / 3 == k / 3 - 1 && (k - 3) % 3 == k % 3
  {
  }

  /** Appending a byte appends a space and its two digits. */
  lemma {:induction false} HexTextSnoc(bs: seq<byte>, b: byte)
    requires |bs| > 0
    ensures HexText(bs + [b]) == HexText(bs) + " " + HexByte(b)
    decreases |bs|
  {
    var h := HexByte(bs[0]);
    if |bs| == 1 {
      assert (bs + [b])[1..] == [b];
    } else {
      var t := bs[1..];
      assert (bs + [b])[0] == bs[0] && (bs + [b])[1..] == t + [b];
      HexTextSnoc(t, b);
      assert HexText(bs + [b]) == h + " " + HexText(t + [b]);
      SpaceJoinAssoc(h, HexText(t), HexByte(b));
    }
  }

  lemma SpaceJoinAssoc(a: string, c: string, d: string)
    ensures a + " " + (c + " " + d) == (a + " " + c) + " " + d
  {
  }

  /** The text serialisation: one glyph per byte. */
  function TextOf(bs: seq<byte>): (s: string)
    ensures |s| == |bs|
    ensures forall i :: 0 <= i < |bs| ==> s[i] == Glyph(bs[i])
  {
    if |bs| == 0 then [] else TextOf(bs[..|bs| - 1]) + [Glyph(bs[|bs| - 1])]
  }

  /**
   * The text holds no C0 control character (0x00..0x1F), shows the
   * placeholder exactly for those bytes and the byte '.' itself, and keeps
   * every other byte's code, DEL and 0x80..0x9F included.
   */
  lemma TextOfGlyphs(bs: seq<byte>, i: int)
    requires 0 <= i < |bs|
    ensures TextOf(bs)[i] as int > 0x1F
    ensures TextOf(bs)[i] == Placeholder <==> IsInvisibleChar(bs[i]) || bs[i] == 0x2E
    ensures TextOf(bs)[i] != Placeholder ==> TextOf(bs)[i] as int == bs[i] as int
  {
  }

  /** Reads back a hex serialisation; anything not of the form HexText produces is None. */
  function ParseHex(s: string): Option<seq<byte>>
    decreases |s|
  {
    if |s| == 0 then Some([])
    else if |s| < 2 then None
    else match (Hex.DigitValue(s[0]), Hex.DigitValue(s[1]))
      case (Some(hi), Some(lo)) =>
        var b := (hi * 16 + lo) as byte;
        if |s| == 2 then Some([b])
        else if |s| > 3 && s[2] == ' ' then
          match ParseHex(s[3..])
          case Some(rest) => Some([b] + rest)
          case None => None
        else None
      case _ => None
  }

  /** The hex serialisation loses nothing: parsing it gives the bytes back. */
  lemma {:induction false} HexTextRoundTrip(bs: seq<byte>)
    ensures ParseHex(HexText(bs)) == Some(bs)
    decreases |bs|
  {
    if |bs| == 1 {
      assert HexText(bs) == HexByte(bs[0]);
      ParseHexByte(bs[0]);
      assert bs == [bs[0]];
    } else if |bs| > 1 {
      var rest := HexText(bs[1..]);
      assert HexText(bs) == HexByte(bs[0]) + " " + rest;
      HexTextRoundTrip(bs[1..]);
      ParseHexCons(bs[0], rest, bs[1..]);
      assert bs == [bs[0]] + bs[1..];
    }
  }

  /** Parsing one byte's two digits. */
  lemma ParseHexByte(b: byte)
    ensures ParseHex(HexByte(b)) == Some([b])
  {
    NibblesRoundTrip(b);
  }

  /** Parsing one byte's digits followed by a space and more input. */
  lemma ParseHexCons(b: byte, rest: string, tail: seq<byte>)
    requires rest != [] && ParseHex(rest) == Some(tail)
    ensures ParseHex(HexByte(b) + " " + rest) == Some([b] + tail)
  {
    var s := HexByte(b) + " " + rest;
    assert s[2] == ' ' && |s| > 3 && s[3..] == rest;
    ParseHexStep(s, b as int / 16, b as int % 16, tail);
    NibblesRoundTrip(b);
  }

  /** Two digits, a space and a parsable remainder parse to one more byte in front. */
  lemma ParseHexStep(s: string, hi: int, lo: int, tail: seq<byte>)
    requires |s| > 3 && Hex.DigitValue(s[0]) == Some(hi) && Hex.DigitValue(s[1]) == Some(lo)
    requires s[2] == ' ' && ParseHex(s[3..]) == Some(tail)
    ensures ParseHex(s) == Some([(hi * 16 + lo) as byte] + tail)
  {
  }

  /** A byte is its high nibble times 16 plus its low nibble. */
  lemma NibblesRoundTrip(b: byte)
    ensures ((b as int / 16) * 16 + b as int % 16) as byte == b
  {
  }

  /** Python's s[i:j]: negative bounds count from the end, then both clamp to the sequence. */
  function PySlice<T>(s: seq<T>, i: int, j: int): (r: seq<T>)
    ensures 0 <= i <= j <= |s| ==> r == s[i..j]
    ensures 0 <= j <= i ==> r == []
    ensures |r| <= |s|
  {
    var lo := ClampIndex(i, |s|);
    var hi := ClampIndex(j, |s|);
    if hi <= lo then [] else s[lo..hi]
  }

  /** How Python normalises one slice bound against a length. */
  function ClampIndex(i: int, n: nat): (k: int)
    ensures 0 <= k <= n
    ensures 0 <= i <= n ==> k == i
  {
    if i < 0 then (if i + n < 0 then 0 else i + n)
    else if i > n then n
    else i
  }

  /** The byte a caret column stands before: its own byte for a digit column, the next for a separator. */
  function ByteOfColumn(col: int): (k: int)
    ensures 3 * k - 1 <= col <= 3 * k + 1
  {
    (col + 1) / 3
  }

  /** Byte offsets [begin, end) of the selection inside the buffer. */
  function CopyRange(c: Cursor.TextCursor, bytesPerLine: int): (int, int)
  {
    (ByteOfColumn(Cursor.BeginPos(c)) + Cursor.BeginLine(c) * bytesPerLine,
     ByteOfColumn(Cursor.EndPos(c)) + Cursor.EndLine(c) * bytesPerLine)
  }

  /**
   * The copy range runs from the anchor first in reading order to the other,
   * so it does not depend on the direction of the drag.
   */
  lemma CopyRangeIgnoresDirection(c: Cursor.TextCursor, bytesPerLine: int)
    ensures Cursor.LexLe(c.beginLine, c.beginPos, c.endLine, c.endPos) ==>
      CopyRange(c, bytesPerLine) ==
        (ByteOfColumn(c.beginPos) + c.beginLine * bytesPerLine, ByteOfColumn(c.endPos) + c.endLine * bytesPerLine)
    ensures CopyRange(c.(beginLine := c.endLine, beginPos := c.endPos, endLine := c.beginLine, endPos := c.beginPos),
                      bytesPerLine)
         == CopyRange(c, bytesPerLine)
  {
  }

  /** The bytes the selection covers, sliced the way Python slices. */
  function Selected(data: seq<byte>, c: Cursor.TextCursor, bytesPerLine: int): (sel: seq<byte>)
    ensures var r := CopyRange(c, bytesPerLine);
      0 <= r.0 <= r.1 <= |data| ==> sel == data[r.0..r.1]
    ensures var r := CopyRange(c, bytesPerLine);
      0 <= r.1 <= r.0 ==> sel == []
    ensures |sel| <= |data|
  {
    var range := CopyRange(c, bytesPerLine);
    PySlice(data, range.0, range.1)
  }

  /** The hex serialisation built the way the source builds it, one byte at a time. */
  method HexTextLoop(bytes: seq<byte>) returns (s: string)
    ensures s == HexText(bytes)
  {
    s := "";
    var i := 0;
    while i < |bytes|
      invariant 0 <= i <= |bytes|
      invariant i == 0 ==> s == ""
      invariant 0 < i < |bytes| ==> s == HexText(bytes[..i]) + " "
      invariant 0 < i == |bytes| ==> s == HexText(bytes)
    {
      if i > 0 {
        HexTextSnoc(bytes[..i], bytes[i]);
        assert bytes[..i + 1] == bytes[..i] + [bytes[i]];
      } else {
        assert bytes[..1] == [bytes[0]];
      }
      if i + 1 != |bytes| {
        s := s + HexByte(bytes[i]) + " ";
      } else {
        assert bytes[..i + 1] == bytes;
        s := s + HexByte(bytes[i]);
      }
      i := i + 1;
    }
  }

  /** The text serialisation built the way the source builds it, one byte at a time. */
  method TextLoop(bytes: seq<byte>) returns (s: string)
    ensures s == TextOf(bytes)
  {
    s := "";
    var i := 0;
    while i < |bytes|
      invariant 0 <= i <= |bytes|
      invariant s == TextOf(bytes[..i])
    {
      assert bytes[..i + 1][..i] == bytes[..i];
      s := s + [Glyph(bytes[i])];
      i := i + 1;
    }
    assert bytes[..i] == bytes;
  }

  /**
   * The text put on the clipboard, or None when nothing is copied: no data,
   * an empty buffer, or no selection.
   */
  method DoCopy(data: Option<seq<byte>>, c: Cursor.TextCursor, bytesPerLine: int, asHex: bool)
    returns (text: Option<string>)
    ensures text.None? <==> data.None? || |data.value| == 0 || !Cursor.HasSelection(c)
    ensures text.Some? && asHex ==> text.value == HexText(Selected(data.value, c, bytesPerLine))
    ensures text.Some? && !asHex ==> text.value == TextOf(Selected(data.value, c, bytesPerLine))
  {
    if data.None? || |data.value| == 0 || !Cursor.HasSelection(c) {
      return None;
    }
    var bytes := Selected(data.value, c, bytesPerLine);
    var s;
    if asHex {
      s := HexTextLoop(bytes);
    } else {
      s := TextLoop(bytes);
    }
    return Some(s);
  }

  /** Hex export of 0A FF 41, and the text export of the same bytes. */
  lemma ExportExample()
    ensures HexText([0x0A, 0xFF, 0x41]) == "0A FF 41"
    ensures TextOf([0x0A, 0xFF, 0x41]) == ['.', 0xFF as char, 'A']
  {
    var bs: seq<byte> := [0x0A, 0xFF, 0x41];
    assert bs[1..] == [0xFF, 0x41] && bs[1..][1..] == [0x41];
    assert HexByte(0x0A) == "0A" && HexByte(0xFF) == "FF" && HexByte(0x41) == "41";
    assert HexText(bs) == "0A" + " " + ("FF" + " " + "41");
  }
}

=== FILE: geometry.dfy ===
/**
 * Grid geometry of the hex view: how many lines the buffer needs and which
 * (line, column) address a pixel position falls on (PyHexEdit.lineCount,
 * rowForPos and rowColForPos).
 */
module Geometry {
  import opened Ints

  /**
   * Column slots of one hex line: two digits per byte plus a separator
   * between bytes. The last column is the caret just past the last byte.
   */
  function CharsPerLine(bytesPerLine: int): (n: int)
    ensures n == 3 * bytesPerLine - 1
    ensures bytesPerLine > 0 ==> n % 3 == 2 && (n + 1) / 3 == bytesPerLine
  {
    bytesPerLine * 2 + (bytesPerLine - 1)
  }

  /**
   * What the pixel mapping reads from the view. A `dataLen` of 0 stands for
   * both "no buffer" and "empty buffer": the source tests `not self._data`
   * in every function modelled here.
   */
  datatype Grid = Grid(
    dataLen: nat,
    bytesPerLine: int,
    charWidth: int,
    lineHeight: int,
    firstVisibleLine: int,
    hexPosX: int,
    asciiPosX: int)

  predicate ValidGrid(g: Grid) {
    g.bytesPerLine > 0 && g.charWidth > 0 && g.lineHeight > 0
  }

  /** A logical address in the grid. */
  datatype Address = Address(line: int, col: int)

  /** Lines needed to show `dataLen` bytes, `bytesPerLine` to a line. */
  function LineCount(dataLen: nat, bytesPerLine: int): (n: nat)
    requires bytesPerLine > 0
    ensures n == 0 <==> dataLen == 0
    ensures dataLen > 0 ==> (n - 1) * bytesPerLine < dataLen <= n * bytesPerLine
  {
    var c := dataLen / bytesPerLine;
    var n := if dataLen % bytesPerLine != 0 then c + 1 else c;
    assert dataLen == c * bytesPerLine + dataLen % bytesPerLine;
    n
  }

  /** Bytes on the last line when it is partial, 0 when every line is full. */
  function Rest(g: Grid): int
    requires ValidGrid(g)
  {
    g.dataLen % g.bytesPerLine
  }

  /** The highest line an address may have (line 0 even when there is no data). */
  function LastLine(g: Grid): nat
    requires ValidGrid(g)
  {
    Max(LineCount(g.dataLen, g.bytesPerLine) - 1, 0)
  }

  /** The highest column an address on `line` may have. */
  function ColumnBound(g: Grid, line: int): int
    requires ValidGrid(g)
  {
    if g.dataLen == 0 then 0
    else if line == LineCount(g.dataLen, g.bytesPerLine) - 1 && Rest(g) != 0 then 3 * Rest(g)
    else CharsPerLine(g.bytesPerLine)
  }

  /** A column bound is a whole number of bytes or the full line width, never more. */
  lemma ColumnBoundShape(g: Grid, line: int)
    requires ValidGrid(g)
    ensures 0 <= ColumnBound(g, line) <= CharsPerLine(g.bytesPerLine)
    ensures ColumnBound(g, line) % 3 == 0 || ColumnBound(g, line) == CharsPerLine(g.bytesPerLine)
    ensures CharsPerLine(g.bytesPerLine) == 3 * g.bytesPerLine - 1
    ensures CharsPerLine(g.bytesPerLine) % 3 == 2
  {
  }

  /**
   * On a line of the grid, the highest column is the caret position just
   * past the line's last byte: its byte index (col + 1) / 3 is the number of
   * bytes the line holds.
   */
  lemma ColumnBoundIsLineEnd(g: Grid, line: int)
    requires ValidGrid(g) && g.dataLen > 0 && 0 <= line < LineCount(g.dataLen, g.bytesPerLine)
    ensures (ColumnBound(g, line) + 1) / 3 == Min(g.bytesPerLine, g.dataLen - line * g.bytesPerLine)
  {
    var b := g.bytesPerLine;
    var n := LineCount(g.dataLen, b);
    assert g.dataLen == (g.dataLen / b) * b + Rest(g);
    if line == n - 1 && Rest(g) != 0 {
      assert n - 1 == g.dataLen / b;
    } else {
      if line < n - 1 {
        MulLe(line + 1, n - 1, b);
      } else {
        assert n == g.dataLen / b;
      }
      assert (line + 1) * b <= g.dataLen;
    }
  }

  /** The pixel row `y` (clamped at the top edge) lies in the band of `line`. */
  ghost predicate InBand(g: Grid, y: int, line: int)
    requires ValidGrid(g)
  {
    var y' := Max(0, y);
    (line - g.firstVisibleLine) * g.lineHeight <= y' < (line - g.firstVisibleLine + 1) * g.lineHeight
  }

  lemma DivBand(a: int, d: int)
    requires d > 0
    ensures (a / d) * d <= a < (a / d + 1) * d
    ensures a < (a / d) * d + d
  {
  }

  lemma MulLe(a: int, b: int, c: nat)
    requires a <= b
    ensures a * c <= b * c
  {
  }

  lemma DivExact(q: int, r: int, d: int)
    requires d > 0 && 0 <= r < d
    ensures (q * d + r) / d == q
  {
    DivBand(q * d + r, d);
    MulCancel(q, (q * d + r) / d + 1, d);
    MulCancel((q * d + r) / d, q + 1, d);
  }

  lemma MulCancel(x: int, y: int, d: int)
    requires d > 0 && x * d < y * d
    ensures x < y
  {
  }

  lemma DivMonotone(a: int, b: int, d: int)
    requires a <= b && d > 0
    ensures a / d <= b / d
  {
    DivBand(a, d);
    DivBand(b, d);
    MulCancel(a / d, b / d + 1, d);
  }

  /**
   * The line under pixel row `y`: the line whose band contains `y`, unless
   * that band lies past the data, in which case the last line (or 0).
   */
  function RowForPos(g: Grid, y: int): (r: int)
    requires ValidGrid(g)
    ensures r <= LastLine(g)
    ensures g.firstVisibleLine >= 0 ==> r >= 0
    ensures InBand(g, y, r) ||
            (r == LastLine(g) && (LastLine(g) - g.firstVisibleLine + 1) * g.lineHeight <= Max(0, y))
  {
    var y' := Max(0, y);
    var q := y' / g.lineHeight;
    DivBand(y', g.lineHeight);
    var r := q + g.firstVisibleLine;
    var rows := LineCount(g.dataLen, g.bytesPerLine);
    if r < rows then r
    else
      var last := Max(0, rows - 1);
      if r == last then last
      else
        MulLe(last - g.firstVisibleLine + 1, q, g.lineHeight);
        last
  }

  /** Moving the pointer down never moves the row up. */
  lemma {:induction false} RowForPosMonotone(g: Grid, y1: int, y2: int)
    requires ValidGrid(g) && y1 <= y2
    ensures RowForPos(g, y1) <= RowForPos(g, y2)
  {
    DivMonotone(Max(0, y1), Max(0, y2), g.lineHeight);
  }

  /**
   * The unclamped column under pixel column `x` in the chosen pane: in the
   * hex pane the glyph boundary nearest to x, in the text pane the column
   * 3k-1 just past the second digit of byte k-1, for the glyph boundary k
   * nearest to x.
   */
  function RawColumn(g: Grid, x: int, inAsciiView: bool): (c: int)
    requires ValidGrid(g)
    ensures !inAsciiView ==> NearestBoundary(c, x, g.hexPosX, g.charWidth)
    ensures inAsciiView ==> c % 3 == 2 && NearestBoundary((c + 1) / 3, x, g.asciiPosX, g.charWidth)
  {
    var halfChar := g.charWidth / 2;
    var origin := if inAsciiView then g.asciiPosX else g.hexPosX;
    var k := (x + halfChar - origin) / g.charWidth;
    RoundsToNearest(x, origin, g.charWidth);
    if inAsciiView then
      // one glyph of the text pane stands for the three columns of its byte
      ThirdOfColumn(k);
      3 * k - 1
    else
      k
  }

  /**
   * The address under pixel (x, y): the column is clamped to the line, to 0
   * with no data, to the bytes present on a partial last line, and to the
   * line width otherwise.
   */
  function RowColForPos(g: Grid, x: int, y: int, inAsciiView: bool): (a: Address)
    requires ValidGrid(g)
    ensures a.line == RowForPos(g, y)
    ensures 0 <= a.col <= ColumnBound(g, a.line) <= CharsPerLine(g.bytesPerLine)
    ensures g.dataLen == 0 ==> a.col == 0
  {
    var r := RowForPos(g, y);
    var c := RawColumn(g, x, inAsciiView);
    var c1 :=
      if g.dataLen == 0 then 0
      else if r == LineCount(g.dataLen, g.bytesPerLine) - 1 && Rest(g) != 0 then Min(c, Rest(g) * 3)
      else c;
    Address(r, Max(0, Min(c1, CharsPerLine(g.bytesPerLine))))
  }

  /**
   * Glyph boundary k of a pane starting at `origin` (the pixel origin + k * w)
   * is the one nearest to x: x lies less than half a glyph before it or at
   * most half a glyph after it.
   */
  predicate NearestBoundary(k: int, x: int, origin: int, w: int) {
    k * w - w / 2 <= x - origin < k * w - w / 2 + w
  }

  /**
   * Away from the clamps, the column is the caret boundary nearest to x: in
   * the hex pane the boundary between glyphs, in the text pane the boundary
   * after a glyph's byte (mapped to the column just past its second digit).
   */
  lemma RowColForPosNearest(g: Grid, x: int, y: int, inAsciiView: bool)
    requires ValidGrid(g)
    ensures var a := RowColForPos(g, x, y, inAsciiView);
      !inAsciiView && 0 < a.col < ColumnBound(g, a.line) ==>
        NearestBoundary(a.col, x, g.hexPosX, g.charWidth)
    ensures var a := RowColForPos(g, x, y, inAsciiView);
      inAsciiView && 0 < a.col < ColumnBound(g, a.line) ==>
        a.col % 3 == 2 && NearestBoundary((a.col + 1) / 3, x, g.asciiPosX, g.charWidth)
  {
    RowColForPosUnclamped(g, x, y, inAsciiView);
  }

  lemma ThirdOfColumn(k: int)
    ensures (3 * k - 1 + 1) / 3 == k && (3 * k - 1) % 3 == 2
  {
  }

  /** Adding half a glyph before dividing rounds to the nearest glyph boundary. */
  lemma RoundsToNearest(x: int, origin: int, w: int)
    requires w > 0
    ensures NearestBoundary((x + w / 2 - origin) / w, x, origin, w)
  {
    DivBand(x + w / 2 - origin, w);
  }

  /** A column strictly inside its line's bounds is the unclamped one. */
  lemma RowColForPosUnclamped(g: Grid, x: int, y: int, inAsciiView: bool)
    requires ValidGrid(g)
    ensures var a := RowColForPos(g, x, y, inAsciiView);
      0 < a.col < ColumnBound(g, a.line) ==> a.col == RawColumn(g, x, inAsciiView)
  {
    ColumnBoundShape(g, RowForPos(g, y));
  }

  /** Moving the pointer right within one pane never moves the column left. */
  lemma {:induction false} RowColForPosMonotone(g: Grid, x1: int, x2: int, y: int, inAsciiView: bool)
    requires ValidGrid(g) && x1 <= x2
    ensures RowColForPos(g, x1, y, inAsciiView).col <= RowColForPos(g, x2, y, inAsciiView).col
  {
    var halfChar := g.charWidth / 2;
    var origin := if inAsciiView then g.asciiPosX else g.hexPosX;
    DivMonotone(x1 + halfChar - origin, x2 + halfChar - origin, g.charWidth);
    assert RawColumn(g, x1, inAsciiView) <= RawColumn(g, x2, inAsciiView);
  }

  /**
   * Pixel and address agree: the pixel where a caret at (line, pos) is drawn
   * (the top of the line's band, pos glyph widths into the hex pane) maps
   * back to (line, pos).
   */
  lemma {:induction false} CaretPixelRoundTrip(g: Grid, line: int, pos: int)
    requires ValidGrid(g)
    requires g.firstVisibleLine <= line <= LastLine(g) && 0 <= pos <= ColumnBound(g, line)
    ensures RowColForPos(g, g.hexPosX + pos * g.charWidth, (line - g.firstVisibleLine) * g.lineHeight, false)
         == Address(line, pos)
  {
    var x := g.hexPosX + pos * g.charWidth;
    RowForBandTop(g, line);
    DivExact(pos, g.charWidth / 2, g.charWidth);
    assert x + g.charWidth / 2 - g.hexPosX == pos * g.charWidth + g.charWidth / 2;
    RowColForPosOf(g, x, (line - g.firstVisibleLine) * g.lineHeight, false, line, pos);
  }

  /**
   * The same in the text pane: the glyph boundary after byte k maps to the
   * column just past that byte's second digit, 3k-1 (0 at the line start).
   */
  lemma {:induction false} TextCaretPixelRoundTrip(g: Grid, line: int, pos: int)
    requires ValidGrid(g)
    requires g.firstVisibleLine <= line <= LastLine(g) && 0 <= pos <= ColumnBound(g, line)
    requires pos % 3 == 2 || pos == 0
    ensures RowColForPos(g, g.asciiPosX + ((pos + 1) / 3) * g.charWidth, (line - g.firstVisibleLine) * g.lineHeight, true)
         == Address(line, pos)
  {
    var k := (pos + 1) / 3;
    var x := g.asciiPosX + k * g.charWidth;
    RowForBandTop(g, line);
    DivExact(k, g.charWidth / 2, g.charWidth);
    assert x + g.charWidth / 2 - g.asciiPosX == k * g.charWidth + g.charWidth / 2;
    assert RawColumn(g, x, true) == 3 * k - 1;
    TextBoundaryColumn(pos);
    RowColForPosOf(g, x, (line - g.firstVisibleLine) * g.lineHeight, true, line, 3 * k - 1);
  }

  /** A column 3k-1 (or 0) is recovered from its glyph boundary k = (pos + 1) / 3. */
  lemma TextBoundaryColumn(pos: int)
    requires pos >= 0 && (pos % 3 == 2 || pos == 0)
    ensures 3 * ((pos + 1) / 3) - 1 == if pos == 0 then -1 else pos
  {
  }

  /** The top pixel row of a line's band maps back to that line. */
  lemma RowForBandTop(g: Grid, line: int)
    requires ValidGrid(g) && g.firstVisibleLine <= line <= LastLine(g)
    ensures RowForPos(g, (line - g.firstVisibleLine) * g.lineHeight) == line
  {
    DivExact(line - g.firstVisibleLine, 0, g.lineHeight);
  }

  /** Once row and raw column are known, only the clamp at 0 remains. */
  lemma RowColForPosOf(g: Grid, x: int, y: int, inAsciiView: bool, line: int, c: int)
    requires ValidGrid(g) && RowForPos(g, y) == line && RawColumn(g, x, inAsciiView) == c
    requires -1 <= c <= ColumnBound(g, line)
    ensures RowColForPos(g, x, y, inAsciiView) == Address(line, Max(0, c))
  {
    ColumnBoundShape(g, line);
  }

  /**
   * 17 bytes at 16 per line take two lines, and the second holds one byte:
   * on it no column lies past 3, and any pointer right of that byte lands on 3.
   */
  lemma SeventeenBytesScenario(g: Grid, x: int)
    requires ValidGrid(g) && g.dataLen == 17 && g.bytesPerLine == 16 && g.firstVisibleLine == 0
    ensures LineCount(17, 16) == 2
    ensures RowColForPos(g, x, g.lineHeight, false).line == 1
    ensures RowColForPos(g, x, g.lineHeight, false).col <= 3
    ensures x >= g.hexPosX + 3 * g.charWidth ==> RowColForPos(g, x, g.lineHeight, false).col == 3
  {
    DivExact(1, 0, g.lineHeight);
    if x >= g.hexPosX + 3 * g.charWidth {
      DivExact(3, 0, g.charWidth);
      DivMonotone(3 * g.charWidth, x + g.charWidth / 2 - g.hexPosX, g.charWidth);
    }
  }
}

=== FILE: hex.dfy ===
/**
 * Uppercase hexadecimal spelling of naturals, as Python's format(n, "X")
 * and format(n, "0<w>X") produce it, and its decoding.
 */
module Hex {
  import opened Options

  const Digits := "0123456789ABCDEF"

  function Pow(base: nat, e: nat): nat {
    if e == 0 then 1 else base * Pow(base, e - 1)
  }

  lemma {:induction false} PowMonotone(base: nat, e1: nat, e2: nat)
    requires base >= 1 && e1 <= e2
    ensures Pow(base, e1) <= Pow(base, e2)
    decreases e2
  {
    if e1 < e2 {
      PowMonotone(base, e1, e2 - 1);
      assert Pow(base, e2 - 1) <= Pow(base, e2);
    }
  }

  function Digit(v: int): char
    requires 0 <= v < 16
  {
    Digits[v]
  }

  /** The value of an uppercase hex digit; lower case and anything else is not one. */
  function DigitValue(ch: char): (v: Option<int>)
    ensures v.Some? ==> 0 <= v.value < 16 && Digit(v.value) == ch
    ensures ch in Digits ==> v.Some?
  {
    if '0' <= ch <= '9' then Some(ch as int - '0' as int)
    else if 'A' <= ch <= 'F' then Some(ch as int - 'A' as int + 10)
    else None
  }

  lemma DigitRoundTrip(v: int)
    requires 0 <= v < 16
    ensures DigitValue(Digit(v)) == Some(v)
  {
  }

  /** The value a string of hex digits spells, most significant first (0 for ""). */
  function Value(s: string): Option<nat>
  {
    if |s| == 0 then Some(0)
    else match (Value(s[..|s| - 1]), DigitValue(s[|s| - 1]))
      case (Some(hi), Some(lo)) => Some(hi * 16 + lo)
      case _ => None
  }

  /** format(n, "X"): the digits of n without leading zeros ("0" for zero). */
  function Repr(n: nat): (s: string)
    ensures |s| >= 1
    ensures n < Pow(16, |s|)
    ensures |s| > 1 ==> Pow(16, |s| - 1) <= n
    ensures forall i :: 0 <= i < |s| ==> s[i] in Digits
  {
    if n < 16 then [Digit(n)] else Repr(n / 16) + [Digit(n % 16)]
  }

  lemma {:induction false} ReprRoundTrip(n: nat)
    ensures Value(Repr(n)) == Some(n)
  {
    if n < 16 {
      ValueSnoc([], n);
      assert Repr(n) == [] + [Digit(n)];
    } else {
      var q, d := n / 16, n % 16;
      assert Repr(n) == Repr(q) + [Digit(d)];
      ReprRoundTrip(q);
      ValueSnoc(Repr(q), d);
      assert q * 16 + d == n;
    }
  }

  /** Appending a digit multiplies the value by 16 and adds the digit. */
  lemma ValueSnoc(s: string, d: int)
    requires 0 <= d < 16 && Value(s).Some?
    ensures Value(s + [Digit(d)]) == Some(Value(s).value * 16 + d)
  {
    assert (s + [Digit(d)])[..|s|] == s;
    DigitRoundTrip(d);
  }

  /** A larger number never has fewer digits. */
  lemma ReprLengthMonotone(n: nat, m: nat)
    requires n <= m
    ensures |Repr(n)| <= |Repr(m)|
  {
    if |Repr(n)| > |Repr(m)| {
      PowMonotone(16, |Repr(m)|, |Repr(n)| - 1);
    }
  }

  function Zeros(k: nat): (s: string)
    ensures |s| == k && forall i :: 0 <= i < k ==> s[i] == '0'
  {
    if k == 0 then [] else Zeros(k - 1) + ['0']
  }

  /** Leading zeros do not change the value a digit string spells. */
  lemma {:induction false} ValueZeroPrefix(z: string, r: string)
    requires Value(z) == Some(0)
    ensures Value(z + r) == Value(r)
    decreases |r|
  {
    if |r| == 0 {
      assert z + r == z;
    } else {
      var r' := r[..|r| - 1];
      assert (z + r)[..|z + r| - 1] == z + r';
      assert (z + r)[|z + r| - 1] == r[|r| - 1];
      ValueZeroPrefix(z, r');
    }
  }

  /** A run of zeros spells 0. */
  lemma {:induction false} ValueZeros(k: nat)
    ensures Value(Zeros(k)) == Some(0)
  {
    if k > 0 {
      ValueZeros(k - 1);
      assert Zeros(k)[..k - 1] == Zeros(k - 1);
    }
  }

  /** format(n, "0<width>X"): the digits of n, left-padded with zeros to `width`. */
  function Pad(n: nat, width: int): (s: string)
    ensures |s| == if width > |Repr(n)| then width else |Repr(n)|
    ensures s[|s| - |Repr(n)|..] == Repr(n)
    ensures forall i :: 0 <= i < |s| - |Repr(n)| ==> s[i] == '0'
  {
    var r := Repr(n);
    if width > |r| then Zeros(width - |r|) + r else r
  }

  /** Reading a padded spelling back as hex gives the number, whatever the width. */
  lemma PadRoundTrip(n: nat, width: int)
    ensures Value(Pad(n, width)) == Some(n)
  {
    var r := Repr(n);
    ReprRoundTrip(n);
    if width > |r| {
      ValueZeros(width - |r|);
      ValueZeroPrefix(Zeros(width - |r|), r);
    }
  }
}

=== FILE: hexedit.dfy ===
/**
 * The view itself (class PyHexEdit) reduced to its state and the pure steps
 * that change it: setting the data, a primary-button press, a drag with the
 * button held, and copying. Painting, scrollbars, the blink timer and the
 * clipboard are left to the host; pixel positions arrive in content
 * coordinates, that is, with the horizontal scroll offset already added.
 */
module HexEdit {
  import opened Options
  import Cursor
  import Geometry
  import Layouts
  import Export
  import Ints

  /** Bytes shown on one line. */
  const DefaultBytesPerLine := 16

  datatype Editor = Editor(
    data: Option<seq<Export.byte>>,
    bytesPerLine: nat,
    charWidth: int,
    lineHeight: int,
    firstVisibleLine: int,
    layout: Layouts.Layout,
    cursor: Cursor.TextCursor)

  /**
   * Font metrics are positive, the vertical scroll value is not negative,
   * and the cursor's column limit is the line width.
   */
  predicate ValidEditor(ed: Editor) {
    ed.bytesPerLine > 0 && ed.charWidth > 0 && ed.lineHeight > 0 && ed.firstVisibleLine >= 0 &&
    ed.cursor.maxColumn == Geometry.CharsPerLine(ed.bytesPerLine)
  }

  function DataLen(ed: Editor): nat {
    if ed.data.None? then 0 else |ed.data.value|
  }

  function GridOf(ed: Editor): (g: Geometry.Grid)
    requires ValidEditor(ed)
    ensures Geometry.ValidGrid(g)
  {
    Geometry.Grid(DataLen(ed), ed.bytesPerLine, ed.charWidth, ed.lineHeight,
                  ed.firstVisibleLine, ed.layout.hexPosX, ed.layout.asciiPosX)
  }

  function LineCount(ed: Editor): nat
    requires ValidEditor(ed)
  {
    Geometry.LineCount(DataLen(ed), ed.bytesPerLine)
  }

  /** An address the pointer can produce: a real line, a column inside that line. */
  predicate AnchorInGrid(g: Geometry.Grid, line: int, col: int)
    requires Geometry.ValidGrid(g)
  {
    0 <= line <= Geometry.LastLine(g) && 0 <= col <= Geometry.ColumnBound(g, line)
  }

  /**
   * The cursor is either still cleared from construction (no data has been
   * set yet) or both its anchors are addresses of the current grid.
   */
  predicate CursorInGrid(ed: Editor)
    requires ValidEditor(ed)
  {
    var c := ed.cursor;
    (Cursor.Cleared(c) && ed.data.None?) ||
    (AnchorInGrid(GridOf(ed), c.beginLine, c.beginPos) && AnchorInGrid(GridOf(ed), c.endLine, c.endPos))
  }

  /** A view before any data is set: 16 bytes per line, a cleared cursor. */
  function NewEditor(charWidth: int, lineHeight: int): (ed: Editor)
    requires charWidth > 0 && lineHeight > 0
    ensures ValidEditor(ed) && CursorInGrid(ed)
    ensures ed.data.None? && !HasSelection(ed)
    ensures ed.bytesPerLine == DefaultBytesPerLine && ed.charWidth == charWidth && ed.lineHeight == lineHeight
    ensures Cursor.Cleared(ed.cursor) && !ed.cursor.inAsciiView && ed.layout == Layouts.InitialLayout()
  {
    Editor(None, DefaultBytesPerLine, charWidth, lineHeight, 0, Layouts.InitialLayout(),
           Cursor.New(Geometry.CharsPerLine(DefaultBytesPerLine)))
  }

  /** The view has a selection exactly when its cursor is valid and its two anchors differ. */
  function HasSelection(ed: Editor): (s: bool)
    ensures s <==> Cursor.IsValid(ed.cursor) &&
                   (ed.cursor.beginLine, ed.cursor.beginPos) != (ed.cursor.endLine, ed.cursor.endPos)
  {
    Cursor.HasSelection(ed.cursor)
  }

  /**
   * The vertical scroll value after _adjustScrollbar sets the range to
   * [0, top]: a scrollbar raises a negative maximum to the minimum, so the
   * range is [0, max(0, top)], and moves its value into the range.
   */
  function ScrollInRange(value: int, top: int): (v: int)
    requires value >= 0
    ensures 0 <= v <= value && v <= Ints.Max(0, top)
    ensures value <= top ==> v == value
    ensures value > top ==> v == Ints.Max(0, top)
  {
    if value <= top then value else Ints.Max(0, top)
  }

  /**
   * Install a buffer: recompute the layout for its line count, with the
   * gutter as wide as the decimal digit count of that line count, put a
   * caret at the start of the hex pane (the cursor is moved, not cleared),
   * and clamp the vertical scroll value to the new line count.
   * `linesPerPage` is the number of whole lines the viewport shows.
   */
  function SetData(ed: Editor, data: Option<seq<Export.byte>>, linesPerPage: nat): (r: Editor)
    requires ValidEditor(ed)
    ensures ValidEditor(r) && CursorInGrid(r)
    ensures r.data == data
    ensures r.bytesPerLine == ed.bytesPerLine && r.charWidth == ed.charWidth && r.lineHeight == ed.lineHeight
    ensures 0 <= r.firstVisibleLine <= ed.firstVisibleLine
    ensures r.firstVisibleLine <= Ints.Max(0, LineCount(r) - linesPerPage)
    ensures ed.firstVisibleLine <= LineCount(r) - linesPerPage ==> r.firstVisibleLine == ed.firstVisibleLine
    ensures DataLen(r) == 0 ==> r.firstVisibleLine == 0
    ensures Cursor.IsValid(r.cursor) && !HasSelection(r) && !r.cursor.inAsciiView
    ensures Cursor.BeginLine(r.cursor) == 0 && Cursor.BeginPos(r.cursor) == 0
    ensures r.layout == Layouts.LayoutAsWritten(LineCount(r), r.bytesPerLine, r.charWidth)
    ensures r.layout.asciiPosX - r.layout.hexPosX == (Geometry.CharsPerLine(r.bytesPerLine) + 1) * r.charWidth
  {
    var lines := Geometry.LineCount(if data.None? then 0 else |data.value|, ed.bytesPerLine);
    ed.(data := data,
        layout := Layouts.LayoutAsWritten(lines, ed.bytesPerLine, ed.charWidth),
        firstVisibleLine := ScrollInRange(ed.firstVisibleLine, lines - linesPerPage),
        cursor := Cursor.MoveTo(ed.cursor, 0, 0, false))
  }

  /**
   * The gutter SetData lays out is too narrow for a 65537-byte buffer: the
   * last line's label takes six glyphs, the gutter five.
   */
  lemma SetDataLabelOverflows(ed: Editor, data: seq<Export.byte>, linesPerPage: nat)
    requires ValidEditor(ed) && ed.bytesPerLine == DefaultBytesPerLine && |data| == 65537
    ensures var r := SetData(ed, Some(data), linesPerPage);
      LineCount(r) == 4097 &&
      |Layouts.AddressLabel(4096, r.bytesPerLine, r.layout.addrDigits)| * r.charWidth > r.layout.addrWidth
  {
    Layouts.AddressLabelOverflowsAsWritten();
  }

  /** SetData with the gutter sized for the hex labels it shows; everything else is the same. */
  function SetDataCorrected(ed: Editor, data: Option<seq<Export.byte>>, linesPerPage: nat): (r: Editor)
    requires ValidEditor(ed)
    ensures ValidEditor(r) && CursorInGrid(r)
    ensures r == SetData(ed, data, linesPerPage).(layout := r.layout)
    ensures r.layout == Layouts.CorrectedLayout(LineCount(r), r.bytesPerLine, r.charWidth)
  {
    var lines := Geometry.LineCount(if data.None? then 0 else |data.value|, ed.bytesPerLine);
    ed.(data := data,
        layout := Layouts.CorrectedLayout(lines, ed.bytesPerLine, ed.charWidth),
        firstVisibleLine := ScrollInRange(ed.firstVisibleLine, lines - linesPerPage),
        cursor := Cursor.MoveTo(ed.cursor, 0, 0, false))
  }

  /** With the corrected gutter every line's label is exactly as wide as the gutter. */
  lemma SetDataLabelsFit(ed: Editor, data: Option<seq<Export.byte>>, linesPerPage: nat, line: nat)
    requires ValidEditor(ed)
    requires line < LineCount(SetDataCorrected(ed, data, linesPerPage))
    ensures var r := SetDataCorrected(ed, data, linesPerPage);
      |Layouts.AddressLabel(line, r.bytesPerLine, r.layout.addrDigits)| * r.charWidth == r.layout.addrWidth
  {
    var r := SetDataCorrected(ed, data, linesPerPage);
    Layouts.CorrectedLabelsFit(LineCount(r), r.bytesPerLine, r.charWidth, line);
  }

  /**
   * A primary-button press at content pixel (x, y): the pane is the one under
   * x, and the caret moves to the address under the pointer. Without data
   * nothing happens.
   */
  function MousePress(ed: Editor, x: int, y: int): (r: Editor)
    requires ValidEditor(ed)
    ensures ValidEditor(r) && r == ed.(cursor := r.cursor)
    ensures ed.data.None? ==> r == ed
    ensures ed.data.Some? ==>
      Cursor.IsValid(r.cursor) && !HasSelection(r) &&
      r.cursor.inAsciiView == (x >= ed.layout.asciiPosX) &&
      Cursor.BeginLine(r.cursor) == Geometry.RowForPos(GridOf(ed), y) &&
      AnchorInGrid(GridOf(r), r.cursor.beginLine, r.cursor.beginPos)
    ensures ed.data.Some? ==>
      var a := Geometry.RowColForPos(GridOf(ed), x, y, x >= ed.layout.asciiPosX);
      Cursor.BeginLine(r.cursor) == a.line &&
      (x >= ed.layout.asciiPosX ==> Cursor.BeginPos(r.cursor) == a.col) &&
      (x < ed.layout.asciiPosX ==>
         Cursor.BeginPos(r.cursor) / 3 == a.col / 3 && Cursor.BeginPos(r.cursor) % 3 != 2 &&
         Cursor.BeginPos(r.cursor) <= a.col)
    ensures ed.data.Some? ==>
      var a := Geometry.RowColForPos(GridOf(ed), x, y, x >= ed.layout.asciiPosX);
      x < ed.layout.asciiPosX ==>
        Cursor.BeginPos(r.cursor) == (if a.col % 3 == 2 then a.col - 2 else a.col)
    ensures CursorInGrid(ed) ==> CursorInGrid(r)
  {
    if ed.data.None? then ed
    else
      var inAsciiView := x >= ed.layout.asciiPosX;
      var a := Geometry.RowColForPos(GridOf(ed), x, y, inAsciiView);
      Geometry.ColumnBoundShape(GridOf(ed), a.line);
      ed.(cursor := Cursor.MoveTo(ed.cursor, a.line, a.col, inAsciiView))
  }

  /** Snapping keeps each anchor column inside its own line. */
  lemma FixSelectionStaysInGrid(g: Geometry.Grid, c: Cursor.TextCursor)
    requires Geometry.ValidGrid(g) && c.maxColumn == Geometry.CharsPerLine(g.bytesPerLine)
    requires AnchorInGrid(g, c.beginLine, c.beginPos) && AnchorInGrid(g, c.endLine, c.endPos)
    ensures var r := Cursor.FixSelection(c, c.endLine, c.endPos);
      AnchorInGrid(g, r.beginLine, r.beginPos) && AnchorInGrid(g, r.endLine, r.endPos)
  {
    Geometry.ColumnBoundShape(g, c.beginLine);
    Geometry.ColumnBoundShape(g, c.endLine);
    if Geometry.ColumnBound(g, c.beginLine) % 3 == 0 {
      Cursor.FixSelectionKeepsByteBound(c, c.endLine, c.endPos, Geometry.ColumnBound(g, c.beginLine));
    }
    if Geometry.ColumnBound(g, c.endLine) % 3 == 0 {
      Cursor.FixSelectionKeepsByteBound(c, c.endLine, c.endPos, Geometry.ColumnBound(g, c.endLine));
    }
  }

  /**
   * A drag with the primary button held: the end anchor follows the pointer
   * in the pane the press chose, and the selection re-snaps.
   */
  function MouseMove(ed: Editor, x: int, y: int): (r: Editor)
    requires ValidEditor(ed)
    ensures ValidEditor(r) && r == ed.(cursor := r.cursor)
    ensures ed.data.None? ==> r == ed
    ensures ed.data.Some? ==>
      r.cursor.endLine == Geometry.RowForPos(GridOf(ed), y) &&
      r.cursor.beginLine == ed.cursor.beginLine &&
      r.cursor.inAsciiView == ed.cursor.inAsciiView
    ensures ed.data.Some? ==>
      var a := Geometry.RowColForPos(GridOf(ed), x, y, ed.cursor.inAsciiView);
      r.cursor.endLine == a.line &&
      -1 <= r.cursor.endPos - a.col <= 1 && -1 <= r.cursor.beginPos - ed.cursor.beginPos <= 1
    ensures ed.data.Some? && CursorInGrid(ed) && !HasSelection(r) ==>
      var a := Geometry.RowColForPos(GridOf(ed), x, y, ed.cursor.inAsciiView);
      r.cursor.endPos == a.col && r.cursor.beginPos == ed.cursor.beginPos
    ensures CursorInGrid(ed) ==> CursorInGrid(r)
  {
    if ed.data.None? then ed
    else
      var g := GridOf(ed);
      var a := Geometry.RowColForPos(g, x, y, ed.cursor.inAsciiView);
      var moved := ed.cursor.(endLine := a.line, endPos := a.col);
      var r := ed.(cursor := Cursor.SelectTo(ed.cursor, a.line, a.col));
      if CursorInGrid(ed) then
        FixSelectionStaysInGrid(g, moved);
        r
      else r
  }

  /** Byte offset of the anchor (line, col) in the buffer. */
  function Offset(bytesPerLine: int, line: int, col: int): int {
    Export.ByteOfColumn(col) + line * bytesPerLine
  }

  /** Every address of the grid names a byte offset inside the buffer (or its end). */
  lemma AnchorOffsetInBounds(g: Geometry.Grid, line: int, col: int)
    requires Geometry.ValidGrid(g) && g.dataLen > 0 && AnchorInGrid(g, line, col)
    ensures 0 <= Offset(g.bytesPerLine, line, col) <= g.dataLen
    ensures line * g.bytesPerLine <= Offset(g.bytesPerLine, line, col) <= (line + 1) * g.bytesPerLine
  {
    Geometry.ColumnBoundIsLineEnd(g, line);
    Geometry.DivMonotone(col + 1, Geometry.ColumnBound(g, line) + 1, 3);
  }

  /**
   * Copying a selection of the current grid never relies on Python's slice
   * clamping: the byte range lies inside the buffer and does not run backwards.
   */
  lemma CopyRangeInBounds(ed: Editor)
    requires ValidEditor(ed) && CursorInGrid(ed) && HasSelection(ed) && DataLen(ed) > 0
    ensures var range := Export.CopyRange(ed.cursor, ed.bytesPerLine);
      0 <= range.0 <= range.1 <= DataLen(ed) &&
      Export.Selected(ed.data.value, ed.cursor, ed.bytesPerLine) == ed.data.value[range.0..range.1]
  {
    var g := GridOf(ed);
    var c := ed.cursor;
    var b := ed.bytesPerLine;
    var bl, bp, el, ep := Cursor.BeginLine(c), Cursor.BeginPos(c), Cursor.EndLine(c), Cursor.EndPos(c);
    Cursor.AccessorsSortAnchors(c);
    assert AnchorInGrid(g, bl, bp) && AnchorInGrid(g, el, ep);
    AnchorOffsetInBounds(g, bl, bp);
    AnchorOffsetInBounds(g, el, ep);
    if bl < el {
      Geometry.MulLe(bl + 1, el, b);
    }
  }

  /** On one line the copy holds exactly the bytes whose digits the selection spans. */
  lemma CopyOneLineCount(ed: Editor)
    requires ValidEditor(ed) && CursorInGrid(ed) && HasSelection(ed) && DataLen(ed) > 0
    requires !Cursor.HasMultiLines(ed.cursor)
    ensures |Export.Selected(ed.data.value, ed.cursor, ed.bytesPerLine)|
         == Export.ByteOfColumn(Cursor.EndPos(ed.cursor)) - Export.ByteOfColumn(Cursor.BeginPos(ed.cursor))
  {
    CopyRangeInBounds(ed);
  }

  /**
   * copyAsHex / copyAsText: the clipboard text, or None when the source
   * returns without touching the clipboard.
   */
  method Copy(ed: Editor, asHex: bool) returns (text: Option<string>)
    requires ValidEditor(ed) && CursorInGrid(ed)
    ensures text.None? <==> DataLen(ed) == 0 || !HasSelection(ed)
    ensures text.Some? ==>
      var range := Export.CopyRange(ed.cursor, ed.bytesPerLine);
      0 <= range.0 <= range.1 <= DataLen(ed) &&
      text.value == (if asHex then Export.HexText(ed.data.value[range.0..range.1])
                     else Export.TextOf(ed.data.value[range.0..range.1]))
  {
    text := Export.DoCopy(ed.data, ed.cursor, ed.bytesPerLine, asHex);
    if text.Some? {
      CopyRangeInBounds(ed);
    }
  }

  /** copy(): hex text when the caret was placed in the hex pane, glyphs otherwise. */
  method CopyInView(ed: Editor) returns (text: Option<string>)
    requires ValidEditor(ed) && CursorInGrid(ed)
    ensures text.None? <==> DataLen(ed) == 0 || !HasSelection(ed)
    ensures text.Some? ==>
      var range := Export.CopyRange(ed.cursor, ed.bytesPerLine);
      0 <= range.0 <= range.1 <= DataLen(ed) &&
      text.value == (if !ed.cursor.inAsciiView then Export.HexText(ed.data.value[range.0..range.1])
                     else Export.TextOf(ed.data.value[range.0..range.1]))
    ensures text.Some? && !ed.cursor.inAsciiView ==>
      |text.value| == 3 * |Export.Selected(ed.data.value, ed.cursor, ed.bytesPerLine)| - 1 ||
      |text.value| == 0
    ensures text.Some? && ed.cursor.inAsciiView ==>
      |text.value| == |Export.Selected(ed.data.value, ed.cursor, ed.bytesPerLine)|
  {
    text := Copy(ed, !ed.cursor.inAsciiView);
    if text.Some? {
      CopyRangeInBounds(ed);
    }
  }

  /** A cursor as a 16-byte-per-line view constructs it. */
  function Fresh(): Cursor.TextCursor {
    Cursor.New(Geometry.CharsPerLine(DefaultBytesPerLine))
  }

  /** A press on column 5, the separator after byte 1, puts the caret on byte 1's first digit. */
  lemma MoveToSeparatorScenario()
    ensures Cursor.BeginPos(Cursor.MoveTo(Fresh(), 0, 5, false)) == 3
    ensures Export.ByteOfColumn(Cursor.BeginPos(Cursor.MoveTo(Fresh(), 0, 5, false))) == 1
  {
  }

  /**
   * Dragging from column 0 to column 3 selects byte 0 alone (columns 0..2);
   * dragging back to column 0 leaves a caret and no selection.
   */
  lemma SelectForwardAndBackScenario()
    ensures var c1 := Cursor.SelectTo(Cursor.MoveTo(Fresh(), 0, 0, false), 0, 3);
      Cursor.HasSelection(c1) && Cursor.BeginPos(c1) == 0 && Cursor.EndPos(c1) == 2 &&
      Export.ByteOfColumn(Cursor.EndPos(c1)) - Export.ByteOfColumn(Cursor.BeginPos(c1)) == 1
    ensures var c2 := Cursor.SelectTo(Cursor.SelectTo(Cursor.MoveTo(Fresh(), 0, 0, false), 0, 3), 0, 0);
      !Cursor.HasSelection(c2) && Cursor.BeginPos(c2) == 0 && Cursor.EndPos(c2) == 0
  {
  }

  /**
   * A one-line selection need not span a multiple of three columns: a drag
   * from 0 to 4 ends on column 5, just past byte 1's second digit, and
   * covers bytes 0 and 1.
   */
  lemma SpanNotMultipleOfThree()
    ensures var c := Cursor.SelectTo(Cursor.MoveTo(Fresh(), 0, 0, false), 0, 4);
      Cursor.BeginPos(c) == 0 && Cursor.EndPos(c) == 5 &&
      (Cursor.EndPos(c) - Cursor.BeginPos(c)) % 3 != 0 &&
      Export.ByteOfColumn(Cursor.EndPos(c)) - Export.ByteOfColumn(Cursor.BeginPos(c)) == 2
  {
  }

  /**
   * A selection need not cover a byte: from a caret on byte 1, a drag back
   * onto the separator before it swaps the anchor columns to 3 and 2, which
   * still counts as a selection but spans only the separator, so its byte
   * range is empty.
   */
  lemma SeparatorOnlySelection()
    ensures var c := Cursor.SelectTo(Cursor.MoveTo(Fresh(), 0, 3, false), 0, 2);
      Cursor.HasSelection(c) && c.beginPos == 2 && c.endPos == 3 &&
      Cursor.BeginPos(c) == 2 && Cursor.EndPos(c) == 3 &&
      Export.ByteOfColumn(Cursor.BeginPos(c)) == Export.ByteOfColumn(Cursor.EndPos(c))
  {
  }
  /**
   * Snapping can swap the roles of the anchors, and dragging back to the
   * press point need not give a caret back. Press on column 6, drag to 4:
   * the revert snap moves the begin anchor off the press point, to 5, and
   * the end anchor to 3. Drag back to 6: the forward snap moves the end
   * anchor to 5 and the begin anchor to 6. A selection remains, the anchor
   * first in reading order sits on a separator column, and no byte is
   * covered.
   */
  lemma DragBackToPressScenario()
    ensures var c1 := Cursor.SelectTo(Cursor.MoveTo(Fresh(), 0, 6, false), 0, 4);
      c1.beginPos == 5 && c1.endPos == 3
    ensures var c2 := Cursor.SelectTo(Cursor.SelectTo(Cursor.MoveTo(Fresh(), 0, 6, false), 0, 4), 0, 6);
      c2.beginPos == 6 && c2.endPos == 5 && Cursor.HasSelection(c2) &&
      Cursor.BeginPos(c2) == 5 && Cursor.BeginPos(c2) % 3 == 2 &&
      Export.ByteOfColumn(Cursor.BeginPos(c2)) == Export.ByteOfColumn(Cursor.EndPos(c2))
  {
  }

}

=== FILE: ints.dfy ===
/** Integer helpers shared by the cursor and the grid geometry. */
module Ints {

  function Min(a: int, b: int): int { if a <= b then a else b }

  function Max(a: int, b: int): int { if a <= b then b else a }
}

=== FILE: layouts.dfy ===
/**
 * The horizontal layout PyHexEdit.setData derives from the line count and the
 * glyph width: the address gutter, the hex pane and the text pane, and the
 * address label drawn in the gutter (PyHexEdit._drawAddress).
 */
module Layouts {
  import opened Options
  import Hex
  import Geometry

  /** The gutter never gets fewer digits than this. */
  const MinAddressDigits := 4

  /** len(str(n)): the number of decimal digits Python prints for n. */
  function DecimalDigits(n: nat): (d: nat)
    ensures d >= 1
    ensures n < Hex.Pow(10, d)
    ensures d > 1 ==> Hex.Pow(10, d - 1) <= n
  {
    if n < 10 then 1 else 1 + DecimalDigits(n / 10)
  }

  /** Pixel offsets of the three columns of the view, left to right. */
  datatype Layout = Layout(
    addrDigits: int,
    addrWidth: int,
    hexPosX: int,
    asciiPosX: int,
    maxWidth: int)

  /** The layout before any data is set. */
  function InitialLayout(): Layout {
    Layout(MinAddressDigits, 0, 0, 0, 0)
  }

  /**
   * Before data is set the gutter has the minimum digit count and nothing is
   * laid out: no layout computed for a positive glyph width looks like it.
   */
  lemma InitialLayoutIsUnset(digits: int, bytesPerLine: int, charWidth: int)
    requires charWidth > 0
    ensures InitialLayout().addrDigits == MinAddressDigits
    ensures InitialLayout().addrWidth == 0 && InitialLayout().hexPosX == 0
    ensures InitialLayout().asciiPosX == 0 && InitialLayout().maxWidth == 0
    ensures InitialLayout() != LayoutFor(digits, bytesPerLine, charWidth)
  {
  }

  /**
   * The layout for a gutter of `digits` digits: the gutter holds the digits
   * and the `h` suffix, one glyph of space follows, then the hex pane, one
   * more glyph of space, then the text pane.
   */
  function LayoutFor(digits: int, bytesPerLine: int, charWidth: int): (l: Layout)
    ensures l.addrDigits == digits
    ensures l.addrWidth == (digits + 1) * charWidth
    ensures l.hexPosX == l.addrWidth + charWidth
    ensures l.asciiPosX == l.hexPosX + (Geometry.CharsPerLine(bytesPerLine) + 1) * charWidth
    ensures l.maxWidth == l.asciiPosX + bytesPerLine * charWidth
  {
    var addrWidth := (digits + 1) * charWidth;
    var hexPosX := addrWidth + charWidth;
    var hexWidth := bytesPerLine * charWidth * 2 + (bytesPerLine - 1) * charWidth;
    var asciiPosX := hexPosX + hexWidth + charWidth;
    var asciiWidth := bytesPerLine * charWidth;
    Layout(digits, addrWidth, hexPosX, asciiPosX, asciiPosX + asciiWidth)
  }

  /** format(line * bytesPerLine, "0<digits>X") + "h": the label of a line in the gutter. */
  function AddressLabel(line: nat, bytesPerLine: nat, digits: int): (s: string)
    ensures |s| == 1 + if digits > |Hex.Repr(line * bytesPerLine)| then digits else |Hex.Repr(line * bytesPerLine)|
    ensures s[|s| - 1] == 'h'
    ensures Hex.Value(s[..|s| - 1]) == Some(line * bytesPerLine)
  {
    var p := Hex.Pad(line * bytesPerLine, digits);
    Hex.PadRoundTrip(line * bytesPerLine, digits);
    assert (p + "h")[..|p|] == p;
    p + "h"
  }

  /**
   * The gutter width setData computes: the decimal digit count of the line
   * count, at least four.
   */
  function AddressDigitsAsWritten(lineCount: nat): (d: int)
    ensures d >= MinAddressDigits
    ensures lineCount < Hex.Pow(10, d)
    ensures d == MinAddressDigits || Hex.Pow(10, d - 1) <= lineCount
  {
    var d := DecimalDigits(lineCount);
    if d < MinAddressDigits then
      Hex.PowMonotone(10, d, MinAddressDigits);
      MinAddressDigits
    else d
  }

  /**
   * The decimal count undersizes the gutter: 65537 bytes need 4097 lines,
   * whose count has four decimal digits, but the last line's label is the
   * hex offset 0x10000 and needs five digits plus the suffix.
   */
  lemma AddressLabelOverflowsAsWritten()
    ensures Geometry.LineCount(65537, 16) == 4097
    ensures AddressDigitsAsWritten(4097) == 4
    ensures |AddressLabel(4096, 16, AddressDigitsAsWritten(4097))| == 6
    ensures |AddressLabel(4096, 16, AddressDigitsAsWritten(4097))| > AddressDigitsAsWritten(4097) + 1
  {
    assert DecimalDigits(4) == 1;
    assert DecimalDigits(40) == 2;
    assert DecimalDigits(409) == 3;
    assert DecimalDigits(4097) == 4;
    assert |Hex.Repr(1)| == 1;
    assert |Hex.Repr(16)| == 2;
    assert |Hex.Repr(256)| == 3;
    assert |Hex.Repr(4096)| == 4;
    assert |Hex.Repr(65536)| == 5;
  }

  /**
   * The gutter width the label format calls for: the hex digit count of the
   * highest address shown, at least four.
   */
  function AddressDigits(lineCount: nat, bytesPerLine: nat): (d: int)
    ensures d >= MinAddressDigits
    ensures d >= |Hex.Repr(LastOffset(lineCount, bytesPerLine))|
    ensures LastOffset(lineCount, bytesPerLine) < Hex.Pow(16, d)
    ensures d == MinAddressDigits || Hex.Pow(16, d - 1) <= LastOffset(lineCount, bytesPerLine)
  {
    var n := |Hex.Repr(LastOffset(lineCount, bytesPerLine))|;
    if n < MinAddressDigits then
      Hex.PowMonotone(16, n, MinAddressDigits);
      MinAddressDigits
    else n
  }

  /** The byte offset the last line's label shows (0 with no lines). */
  function LastOffset(lineCount: nat, bytesPerLine: nat): nat {
    if lineCount == 0 then 0 else (lineCount - 1) * bytesPerLine
  }

  /** With the corrected width every line's label fills the gutter exactly. */
  lemma AddressLabelFits(lineCount: nat, bytesPerLine: nat, line: nat)
    requires line < lineCount
    ensures |AddressLabel(line, bytesPerLine, AddressDigits(lineCount, bytesPerLine))|
         == AddressDigits(lineCount, bytesPerLine) + 1
  {
    Geometry.MulLe(line, lineCount - 1, bytesPerLine);
    Hex.ReprLengthMonotone(line * bytesPerLine, (lineCount - 1) * bytesPerLine);
  }

  /** In the corrected layout every line's label is exactly as wide as the gutter. */
  lemma CorrectedLabelsFit(lineCount: nat, bytesPerLine: nat, charWidth: int, line: nat)
    requires line < lineCount
    ensures var l := CorrectedLayout(lineCount, bytesPerLine, charWidth);
      |AddressLabel(line, bytesPerLine, l.addrDigits)| * charWidth == l.addrWidth
  {
    var d := AddressDigits(lineCount, bytesPerLine);
    assert CorrectedLayout(lineCount, bytesPerLine, charWidth).addrDigits == d;
    AddressLabelFits(lineCount, bytesPerLine, line);
    var glyphs := |AddressLabel(line, bytesPerLine, d)|;
    assert glyphs == d + 1;
  }

  /** The layout setData installs: the gutter sized by the decimal digit count of the line count. */
  function LayoutAsWritten(lineCount: nat, bytesPerLine: nat, charWidth: int): (l: Layout)
    ensures l.addrDigits >= MinAddressDigits && lineCount < Hex.Pow(10, l.addrDigits)
    ensures l.addrDigits == MinAddressDigits || Hex.Pow(10, l.addrDigits - 1) <= lineCount
    ensures l.addrWidth == (l.addrDigits + 1) * charWidth
    ensures l.hexPosX == l.addrWidth + charWidth
    ensures l.asciiPosX == l.hexPosX + (Geometry.CharsPerLine(bytesPerLine) + 1) * charWidth
    ensures l.maxWidth == l.asciiPosX + bytesPerLine * charWidth
  {
    LayoutFor(AddressDigitsAsWritten(lineCount), bytesPerLine, charWidth)
  }

  /** The corrected layout: the gutter sized by the hex digit count of the last line's offset. */
  function CorrectedLayout(lineCount: nat, bytesPerLine: nat, charWidth: int): (l: Layout)
    ensures l.addrDigits >= MinAddressDigits && LastOffset(lineCount, bytesPerLine) < Hex.Pow(16, l.addrDigits)
    ensures l.addrDigits == MinAddressDigits || Hex.Pow(16, l.addrDigits - 1) <= LastOffset(lineCount, bytesPerLine)
    ensures l.addrWidth == (l.addrDigits + 1) * charWidth
    ensures l.hexPosX == l.addrWidth + charWidth
    ensures l.asciiPosX == l.hexPosX + (Geometry.CharsPerLine(bytesPerLine) + 1) * charWidth
    ensures l.maxWidth == l.asciiPosX + bytesPerLine * charWidth
  {
    LayoutFor(AddressDigits(lineCount, bytesPerLine), bytesPerLine, charWidth)
  }
}

=== FILE: options.dfy ===
/**
 * A value that may be absent: the view's buffer before setData, and the
 * clipboard text when a copy returns early.
 */
module Options {

  datatype Option<T> = None | Some(value: T)
}
